=== FILE: README.md ===
# CypherTrax dashboard: a Dafny model

This project models the behaviour behind the CypherTrax portfolio page. The page has three parts:

- **Terminal.** A fake shell with a fixed table of commands (`help`, `clear`, `whoami`, `ls`, `cat`, `projects`, `skills`, `contact`, `about`, `echo`, `date`, `uname`, `exit`, `shadowrun`) and a hidden `hack` easter egg. It keeps the displayed history of command/output entries and a newest-first list of previous commands, which ArrowUp and ArrowDown step through.
- **Dashboard.** A simulation driven by interval timers:
  - random CPU, memory and network readings;
  - a rolling log capped at 20 entries;
  - five projects whose progress creeps towards 100;
  - a security monitor that sometimes raises an alert, counts a hacker trace and resets five seconds later.

  The dashboard also formats relative times ("5m ago") and picks a colour class per log type.
- **Page.** It switches between the two views, toggles stealth mode, and shows a loading screen for the first two seconds. It records every command the terminal reports. After `exit` it redirects to the dashboard, and after `shadowrun` it turns stealth mode on.

How the model represents these:

- State is immutable datatypes and every handler is a pure function.
- Each timer callback is an explicit event. The page keeps its started timers in a list and any of them may fire next, which covers every order the real delays could produce.
- Each `Math.random()` draw is a parameter of its event. `Math.floor(Math.random() * n)` becomes an integer in `[0, n)`; a comparison `Math.random() > p` becomes a boolean.
- Dates are integer milliseconds.
- The JavaScript string operations the terminal relies on are defined over `seq<char>` and proved correct on their own: `trim`, `split(' ')`, `join` and integer rendering (module `Text`).
- A terminal command's output is kept as a `Terminal.Output`: a named canned block, a single line, or nothing. `Terminal.Render` spells out the lines and `Terminal.Joined` gives the `'\n'`-joined string handed to the page.

Files:

- `wrappers.dfy`: `Option`.
- `jsmath.dfy`: `Math.min` and `Math.max`.
- `text.dfy`: trim, split, join, decimals.
- `terminal.dfy`: the terminal component.
- `dashboard.dfy`: the dashboard component.
- `app.dfy`: the page.

Behaviour worth knowing, as the code has it:

- The page compares the whole trimmed line with `exit`. `exit now` therefore prints "Exiting terminal... Redirecting to dashboard..." and is reported, but no redirect is scheduled (`App.ExitWithArgumentsStays`).
- `clear` empties the display but, unlike every other command, leaves the input line as it was.
- `echo` prints exactly what follows `echo ` on the trimmed line, including runs of spaces (`Terminal.EchoPrintsRemainder`).
- A project's status is decided from its progress before the same tick's update. A project that reaches 100 is therefore not yet `Completed` in that tick, and becomes `Completed` on the next (`Dashboard.CompletionLagsOneTick`).

## Model

| member | source | states |
|---|---|---|
| Text.Trim | src/components/Terminal.tsx:286-287 | the trimmed line is empty exactly when the input is all white space (the early return), and otherwise neither starts nor ends with white space |
| Text.TrimCharacterisation | src/components/Terminal.tsx:286 | trimming white space + a core without white space at either end + white space yields exactly that core |
| Text.TrimIdempotent | src/components/Terminal.tsx:286 | a trimmed line trims to itself, so a recalled previous command executes unchanged |
| Text.Split | src/components/Terminal.tsx:289 | splitting on a space yields at least one piece (so the command word always exists) and no piece contains a space |
| Text.JoinSplit | src/components/Terminal.tsx:289 | joining the split pieces back with the separator restores the line |
| Text.SplitJoin | src/components/Terminal.tsx:215 | splitting a join of at least one separator-free piece returns the pieces |
| Text.Join | src/components/Terminal.tsx:215 | joining nothing gives the empty string; otherwise the join is as long as the pieces plus one separator between each adjacent pair |
| Text.JoinSeparators | src/components/Terminal.tsx:305 | a join holds the separators of its pieces plus exactly one per adjacent pair |
| Text.NatToDecimal | src/components/Dashboard.tsx:238-242 | a rendered number is a non-empty digit string without a leading zero |
| Text.DecimalRoundTrip | src/components/Dashboard.tsx:238-242 | the decimal value of a rendered natural number is that number |
| Text.IntRoundTrip | src/components/Dashboard.tsx:238-242 | every rendered integer, negative ones included, parses back to itself |
| Text.ParseIntCanonical | src/components/Dashboard.tsx:238-242 | the reader accepts a numeral only in the form JavaScript renders it (no leading zero, no `-0`), so whatever it reads as `n` is the rendering of `n` |
| Terminal.Ls | src/components/Terminal.tsx:62-100 | each of `projects`, `skills`, `secrets` lists its own directory, and exactly the other arguments (or none) list the root |
| Terminal.Cat | src/components/Terminal.tsx:102-160 | `about.txt`, `contact.md`, `README.md` and `secrets.txt` each show their own file, in both directions, and no other argument shows a file; with no argument it prints the usage error, and for an unknown name the not-found error naming it |
| Terminal.Echo | src/components/Terminal.tsx:215 | `echo` prints one line, from which splitting on spaces gives back the arguments whenever there is at least one argument and none holds a space |
| Terminal.RunCommand | src/components/Terminal.tsx:31-239 | the table answers exactly the fourteen command names (not `hack`). `ls`, `cat` and `echo` hand their arguments to Ls, Cat and Echo. help, whoami, projects, skills, contact, about and shadowrun each print their own block. `date` prints the host date text, `uname` the system line and `exit` the exit message. `clear` is the only command with no output |
| Terminal.Init | src/components/Terminal.tsx:241-259 | the mounted terminal shows just the welcome block, with no previous commands and nothing selected |
| Terminal.OutputOf | src/components/Terminal.tsx:297-321 | a line's output is the table's output when its first word is a command; `hack` gives the easter-egg line; any other word gives "Command not found" naming the word |
| Terminal.ExecuteTrimmed | src/components/Terminal.tsx:285-325 | an empty line changes nothing. Any other line is remembered newest-first and resets the selection. `clear` empties the display, keeps the input and reports nothing. Other lines append exactly one entry and clear the input. The parent is told exactly of table commands other than `clear`, with the line and its output. The secret timer starts exactly for `shadowrun` with a callback. The toast shows exactly for `hack` |
| Terminal.Execute | src/components/Terminal.tsx:285-293 | a line of white space alone is a no-op; any other line is remembered trimmed and resets the selection |
| Terminal.ExitReported | src/components/Terminal.tsx:297-306 | the parent is called with the command `exit` exactly when the trimmed line is `exit` |
| Terminal.ShadowrunSchedules | src/components/Terminal.tsx:222-238 | `shadowrun` starts the secret timer exactly when the secret callback exists, and is reported with its canned block |
| Terminal.ExitLineRuns | src/components/Terminal.tsx:218-221 | any line whose first word is `exit` shows the exit message and is reported as the whole line, without a secret timer |
| Terminal.ExecutePreservesValid | src/components/Terminal.tsx:292-293 | executing a line keeps the selection index within -1 and the previous-command list |
| Terminal.EchoPrintsRemainder | src/components/Terminal.tsx:215 | `echo` alone prints an empty line; otherwise the line starts with `echo ` and exactly the rest of the line is printed |
| Terminal.EchoOutput | src/components/Terminal.tsx:285-298 | what the terminal shows for a line starting with the word `echo` is exactly the rest of the line after `echo `, or an empty line for `echo` alone |
| Terminal.JoinedLine | src/components/Terminal.tsx:305 | the string handed to the parent (`Terminal.Joined`, `output.join('\n')`) is the line itself for single-line output and empty for no output |
| Terminal.Navigate | src/components/Terminal.tsx:332-351 | ArrowUp selects the next older command, saturating at the oldest and doing nothing with no history; ArrowDown selects the next newer one down to -1, where the input is emptied; other keys change nothing; history and previous commands are untouched and the index stays in range |
| Terminal.UpThenDown | src/components/Terminal.tsx:332-351 | ArrowDown after ArrowUp restores the previous selection and shows its command (or an empty input when nothing was selected) |
| Terminal.UpSaturates | src/components/Terminal.tsx:334-340 | with the oldest command selected, ArrowUp keeps it selected and shown |
| Dashboard.Init | src/components/Dashboard.tsx:24-91 | the seeded dashboard is valid (the five named projects in order, at most 20 logs, progress within [0, 100]), with zero traces, a secure status, zeroed metrics and no reset timer pending |
| Dashboard.RandomLogMessage | src/components/Dashboard.tsx:166-191 | the chosen log message is one of the twenty messages |
| Dashboard.LogMessageReach | src/components/Dashboard.tsx:166-191 | every one of the twenty messages is chosen by some draw |
| Dashboard.RandomLogType | src/components/Dashboard.tsx:193-202 | draws 0-4 give info, 5-6 warning, 7 error and 8-10 success, each in both directions |
| Dashboard.LogTypeWeights | src/components/Dashboard.tsx:194-199 | the type table holds 5 info, 2 warning, 1 error and 3 success entries |
| Dashboard.GetLogClass | src/components/Dashboard.tsx:246-254 | info, warning and error each get their own class and nothing else does; success and every unknown type get the primary class |
| Dashboard.LogClassOfTypes | src/components/Dashboard.tsx:246-254 | among the four log types, only success shares the default colour |
| Dashboard.MetricsTick | src/components/Dashboard.tsx:99-106 | after a metrics tick CPU is in 20..69, memory in 40..69, upload in 0..9 and download in 0..14, and nothing but the three metrics changes |
| Dashboard.MetricsRangeExact | src/components/Dashboard.tsx:99-106 | every reading inside those ranges is produced by some draw, so the ranges are exact |
| Dashboard.PrependLog | src/components/Dashboard.tsx:116 | the new entry comes first, followed by the newest old entries, and the list grows by one until it is capped at 20 |
| Dashboard.LogTick | src/components/Dashboard.tsx:109-117 | a log tick puts the drawn message, stamped now and of the drawn type, in front of the kept old logs, with at most 20 logs, and nothing but the logs changes |
| Dashboard.UpdateProgress | src/components/Dashboard.tsx:204-211 | progress never exceeds 100, stays 100 once reached, never goes down and rises by at most 9 |
| Dashboard.UpdateProgressReach | src/components/Dashboard.tsx:204-211 | every value between the current progress and min(current + 9, 100) is reachable in one tick |
| Dashboard.UpdateStatus | src/components/Dashboard.tsx:213-222 | progress 100 means `Completed`; otherwise the status is kept when the 80% draw says so and is else one of the six statuses |
| Dashboard.UpdateStatusReach | src/components/Dashboard.tsx:221 | below 100, a redraw can give any of the six statuses |
| Dashboard.TickProject | src/components/Dashboard.tsx:122-127 | a project keeps its name; progress and status are updated, the status from the old progress; the last update becomes now exactly when the 30% draw says so and is otherwise unchanged |
| Dashboard.ProjectTick | src/components/Dashboard.tsx:120-129 | every project keeps its name and place, completed projects stay completed at 100, progress stays within [min(old, 100), 100]; each project is updated by TickProject from its own draw, and nothing but the projects changes |
| Dashboard.CompletionLagsOneTick | src/components/Dashboard.tsx:124-125 | for any draws, a project below 100 that is not `Completed` is not yet `Completed` after a tick, even one that brings it to 100; once at 100, the next tick makes it `Completed` |
| Dashboard.SecurityTick | src/components/Dashboard.tsx:132-153 | without an alert nothing changes; an alert raises the status, adds one trace, puts the intrusion log first (cap 20) and starts one reset timer, changing nothing else |
| Dashboard.SecurityReset | src/components/Dashboard.tsx:149-151 | the reset timer sets the status back to secure and changes nothing else |
| Dashboard.ElapsedSeconds | src/components/Dashboard.tsx:236 | elapsed seconds are the milliseconds divided by 1000 rounded down, also for negative spans |
| Dashboard.ReadLabel | src/components/Dashboard.tsx:238-242 | a `<n><unit> ago` text reads back as its number and unit |
| Dashboard.TimeAgo | src/components/Dashboard.tsx:235-243 | the text reads back as the seconds below a minute, the whole minutes below an hour, the whole hours below a day, and the whole days beyond; with `Dashboard.ReadTimeAgoExact` this fixes the exact text |
| Dashboard.ReadTimeAgoExact | src/components/Dashboard.tsx:238-242 | a text that reads back as a number and unit is exactly the template `${n}<unit> ago` for them |
| Dashboard.TimeAgoMeaning | src/components/Dashboard.tsx:235-243 | under a minute the exact seconds are shown; beyond that, the whole number of the largest fitting unit, rounded down (never 60m or 24h) |
| Dashboard.StepPreservesValid | src/components/Dashboard.tsx:93-153 | every timer callback keeps at most 20 logs, the five projects in order with progress in [0, 100], metrics at zero or in range, and raises the trace count by exactly one on an alert and otherwise not at all |
| Dashboard.Step | src/components/Dashboard.tsx:93-153 | only the clock moves the time; only the log and security callbacks touch the log, keeping it within 20 entries; only an alert adds a trace (exactly one); the project list keeps its length |
| Dashboard.RunInvariant | src/components/Dashboard.tsx:132-153 | over any run the dashboard stays valid and the hacker-trace count grows by exactly the number of alerts |
| App.Init | src/pages/Index.tsx:11-24 | the page starts in the terminal view, stealth off, loading, with only the loading timer pending and an empty command log |
| App.ToggleView | src/pages/Index.tsx:52-59 | toggling switches to the other view and changes nothing else |
| App.ToggleStealthMode | src/pages/Index.tsx:61-77 | toggling flips stealth mode and changes nothing else |
| App.TogglesAreInvolutions | src/pages/Index.tsx:52-77 | toggling twice, either the view or stealth mode, restores the page |
| App.HandleSecretCommand | src/pages/Index.tsx:42-50 | the secret handler turns stealth mode on and changes nothing else |
| App.SecretCommandIdempotent | src/pages/Index.tsx:42-77 | the secret handler is idempotent and overrides a preceding toggle |
| App.HandleCommandExecuted | src/pages/Index.tsx:26-40 | every reported command is appended to the log, and exactly the command `exit` starts the dashboard redirect timer |
| App.FireTimer | src/pages/Index.tsx:18-40 | a fired timer leaves the pending list. Loading ends on the loading timer, the redirect shows the dashboard, and the secret callback turns stealth on. Nothing else changes |
| App.Submit | src/components/Terminal.tsx:327-330 | submitting a blank input changes nothing; any other line becomes the newest previous command, trimmed, with the selection reset; view, stealth mode and loading are untouched and at most one timer is added |
| App.Route | src/pages/Index.tsx:26-40 | the terminal's report, if any, is logged; a redirect timer is added for `exit` and a secret timer when the terminal started one; view, stealth mode and loading are untouched |
| App.RouteRedirect | src/pages/Index.tsx:29-39 | the page schedules a redirect exactly when the terminal reports the command `exit` |
| App.RouteSecret | src/components/Terminal.tsx:222-227 | a secret timer started with a report other than `exit` adds exactly that one pending timer |
| App.Step | src/pages/Index.tsx:26-77 | typing only replaces the input line (`handleInputChange`, Terminal.tsx:275-277); arrow keys leave the display, the previous commands and the whole page alone; the view changes only by the toggle or the redirect timer, stealth mode only by the toggle or the secret timer, and only a submitted line logs a command |
| App.LoadingOnlyEnds | src/pages/Index.tsx:18-24 | loading never restarts, and it ends exactly when the loading timer fires |
| App.SubmitLogsReportedCommands | src/pages/Index.tsx:26-27 | a submitted line adds one log record with its output when its first word is a table command other than `clear`, and none otherwise |
| Terminal.ExitExcludesSecret | src/components/Terminal.tsx:222-229 | no line both reports `exit` to the parent and starts the secret timer |
| App.SubmitRedirectsOnlyOnExit | src/pages/Index.tsx:29-39 | submitting schedules the dashboard redirect exactly when the trimmed line is `exit` |
| App.ExitWithArgumentsStays | src/pages/Index.tsx:29-39 | `exit` with arguments shows and logs the exit message yet schedules no timer |
| App.ShadowrunSchedulesStealth | src/pages/Index.tsx:42-50 | submitting `shadowrun` adds the secret timer, and firing it turns stealth mode on |
| App.RoutePreservesValid | src/pages/Index.tsx:79-80 | once loading is over, routing a terminal outcome with an in-range selection keeps the page valid |
| App.StepPreservesValid | src/pages/Index.tsx:79-80 | every enabled event keeps the page valid: nothing but the loading timer happens while loading, and the loading timer never returns |
| App.RunInvariant | src/pages/Index.tsx:11-40 | over any run the page stays valid, loading never restarts, and the command log gains at most one record per submitted line |

## Left out

- Rendering (JSX, CSS classes except `getLogClass`, icons, the matrix rain, the not-found page), auto-scroll, input focus and toast texts: only whether the `hack` toast is shown is modelled.
- Timer delays: the 2 s loading, 1 s redirect, 1 s secret and 5 s reset timers and the dashboard intervals fire as events in any order, so properties that hold only because of the real delays are not claimed.
- Probabilities: each `Math.random()` outcome is a parameter, so the model says which outcomes are possible, not how likely each is (the 80% status keep, the 10% alert, the 30% touch of `lastUpdate`).
- `new Date().toString()` for `date` and `toLocaleTimeString` in `formatTime` depend on the clock and locale. The first is a text parameter; `formatTime` only renders and is not modelled.
- The dashboard's clock reading in `timeAgo` is a parameter: `Dashboard.TimeAgo` takes the elapsed whole seconds, and `Dashboard.ElapsedSeconds` computes them from two dates.
- Interval and timeout cleanup on unmount. The components stay mounted in the model.
- The footer's random `Active`/`Scanning` label: it is drawn at render time and changes no state.
- Lookups of inherited object keys: `commands[command]` also finds keys such as `constructor` that JavaScript objects inherit. The model's table holds only the fourteen commands it defines.
- Text.IntToString: numbers of 10^21 or more, which JavaScript renders in exponent form, are rendered as plain digits; none of the dashboard's counters gets that large.
- Dafny characters are Unicode scalar values while JavaScript strings are UTF-16 units. All white space that `trim` removes and all characters used here lie in the basic plane, where the two agree.
- Dashboard.MetricsTick: the ranges 20..69 and 40..69 assume exact arithmetic. In IEEE doubles, `Math.floor(20 + r * 50)` and `Math.floor(40 + r * 30)` reach 70 for the largest `Math.random()` values; floating point is not modelled.
- Terminal.Navigate: requires ArrowDown's index to be at most the length of the previous-command list. Every reachable state satisfies this (`Terminal.Valid`); beyond it JavaScript would read `undefined`. For the same reason App.Step lets ArrowDown happen only from such an index.
- The view does not gate terminal events. The hidden terminal takes no clicks, but the model lets typing reach it in either view.
- Events need loading to be over, because neither the terminal nor the buttons exist while the loading screen is shown.
- The dashboard is modelled separately from the page: the page passes it nothing but a class name.

=== FILE: app.dfy ===
/**
  The top-level page: which of the two views is shown, stealth mode, the
  loading screen, the log of commands the terminal reported, and the timers
  the page and the terminal have started but that have not fired yet.

  Timers fire as explicit events in any order, which covers every order the
  real delays could produce.
 */
module App {
  import opened Wrappers
  import opened Text
  import Terminal

  datatype View = TerminalView | DashboardView

  /** A started `setTimeout` whose callback has not run yet. */
  datatype Timer =
    | LoadingDone        // the 2-second loading timer of the page
    | DashboardRedirect  // the 1-second timer started after `exit`
    | SecretCallback     // the terminal's 1-second timer that calls the secret handler

  /** One `{ command, output }` record; the recorded string is `Terminal.Joined(output)`. */
  datatype CommandRecord = CommandRecord(command: string, output: Terminal.Output)

  datatype State = State(
    view: View,
    stealthMode: bool,
    isLoading: bool,
    commandLog: seq<CommandRecord>,
    pending: seq<Timer>,
    terminal: Terminal.State)

  /** The page passes both callbacks to the terminal. */
  const IndexProps := Terminal.Props(true, true)

  /** The first render: terminal view, stealth off, loading, with the loading timer running. */
  function Init(): (s: State)
    ensures s.view == TerminalView && !s.stealthMode && s.isLoading
    ensures s.commandLog == [] && s.pending == [LoadingDone]
    ensures Valid(s)
  {
    State(TerminalView, false, true, [], [LoadingDone], Terminal.Init())
  }

  function Other(v: View): View {
    if v == TerminalView then DashboardView else TerminalView
  }

  /** `toggleView`: switches to the other view and leaves everything else alone. */
  function ToggleView(s: State): (r: State)
    ensures r.view != s.view
    ensures r.(view := s.view) == s
  {
    s.(view := Other(s.view))
  }

  /** `toggleStealthMode`: flips stealth mode and leaves everything else alone. */
  function ToggleStealthMode(s: State): (r: State)
    ensures r.stealthMode == !s.stealthMode
    ensures r.(stealthMode := s.stealthMode) == s
  {
    s.(stealthMode := !s.stealthMode)
  }

  /** Both toggles are involutions. */
  lemma TogglesAreInvolutions(s: State)
    ensures ToggleView(ToggleView(s)) == s
    ensures ToggleStealthMode(ToggleStealthMode(s)) == s
  {
  }

  /** `handleSecretCommand`: stealth mode on, whatever it was. */
  function HandleSecretCommand(s: State): (r: State)
    ensures r.stealthMode
    ensures r.(stealthMode := s.stealthMode) == s
  {
    s.(stealthMode := true)
  }

  lemma SecretCommandIdempotent(s: State)
    ensures HandleSecretCommand(HandleSecretCommand(s)) == HandleSecretCommand(s)
    ensures HandleSecretCommand(ToggleStealthMode(s)) == HandleSecretCommand(s)
  {
  }

  /**
    `handleCommandExecuted`: records the call, and only the command line
    `exit` itself starts the timer that switches to the dashboard.
   */
  function HandleCommandExecuted(s: State, command: string, output: Terminal.Output): (r: State)
    ensures r.commandLog == s.commandLog + [CommandRecord(command, output)]
    ensures command == "exit" ==> r.pending == s.pending + [DashboardRedirect]
    ensures command != "exit" ==> r.pending == s.pending
    ensures r.view == s.view && r.stealthMode == s.stealthMode && r.isLoading == s.isLoading
    ensures r.terminal == s.terminal
  {
    var logged := s.(commandLog := s.commandLog + [CommandRecord(command, output)]);
    if command == "exit" then logged.(pending := s.pending + [DashboardRedirect]) else logged
  }

  /** Removes the `i`-th pending timer. */
  function Without(ts: seq<Timer>, i: nat): (r: seq<Timer>)
    requires i < |ts|
    ensures |r| == |ts| - 1
    ensures multiset(r) == multiset(ts) - multiset{ts[i]}
  {
    assert ts == ts[..i] + [ts[i]] + ts[i + 1..];
    ts[..i] + ts[i + 1..]
  }

  /** The callback of pending timer `i` runs. */
  function FireTimer(s: State, i: nat): (r: State)
    requires i < |s.pending|
    ensures s.pending[i] == LoadingDone ==> !r.isLoading && r.(isLoading := s.isLoading, pending := s.pending) == s
    ensures s.pending[i] == DashboardRedirect ==> r.view == DashboardView && r.(view := s.view, pending := s.pending) == s
    ensures s.pending[i] == SecretCallback ==> r.stealthMode && r.(stealthMode := s.stealthMode, pending := s.pending) == s
    ensures multiset(r.pending) == multiset(s.pending) - multiset{s.pending[i]}
  {
    var rest := s.(pending := Without(s.pending, i));
    match s.pending[i]
    case LoadingDone => rest.(isLoading := false)
    case DashboardRedirect => rest.(view := DashboardView)
    case SecretCallback => HandleSecretCommand(rest)
  }

  // ---------------------------------------------------------------------------
  // the page as a transition system
  // ---------------------------------------------------------------------------

  datatype Event =
    | ToggleViewClicked
    | ToggleStealthClicked
    | Typed(text: string)
    | KeyPressed(key: Terminal.Key)
    | Submitted(dateText: string)
    | TimerFired(index: nat)

  /**
    While the loading screen shows, neither the buttons nor the terminal exist.
    ArrowDown is only considered from a selection within the list, which every
    valid state has.
   */
  predicate Enabled(s: State, e: Event) {
    match e
    case TimerFired(i) => i < |s.pending|
    case KeyPressed(k) =>
      !s.isLoading && (k == Terminal.ArrowDown ==> s.terminal.commandIndex <= |s.terminal.previousCommands|)
    case _ => !s.isLoading
  }

  /** Hands what the terminal did to the page: its new state, the reported command, the secret timer. */
  function Route(s: State, o: Terminal.Outcome): (r: State)
    ensures r.terminal == o.state
    ensures r.view == s.view && r.stealthMode == s.stealthMode && r.isLoading == s.isLoading
    ensures o.effects.notified.None? ==> r.commandLog == s.commandLog
    ensures o.effects.notified.Some? ==>
      r.commandLog == s.commandLog + [CommandRecord(o.effects.notified.value.command, o.effects.notified.value.output)]
    ensures r.pending == s.pending +
      (if o.effects.notified.Some? && o.effects.notified.value.command == "exit" then [DashboardRedirect] else []) +
      (if o.effects.secretScheduled then [SecretCallback] else [])
  {
    var withTerminal := s.(terminal := o.state);
    var notified :=
      match o.effects.notified
      case Some(n) => HandleCommandExecuted(withTerminal, n.command, n.output)
      case None => withTerminal;
    if o.effects.secretScheduled then notified.(pending := notified.pending + [SecretCallback])
    else notified
  }

  /**
    The terminal's submit: the current input line is executed and its effects
    reach the page. A blank line changes nothing; any other line is
    remembered, trimmed, as the newest previous command; the view, stealth
    mode and loading flag are left to the timers.
   */
  function Submit(s: State, dateText: string): (r: State)
    ensures AllSpace(s.terminal.input) ==> r == s
    ensures !AllSpace(s.terminal.input) ==>
      r.terminal.previousCommands == [Trim(s.terminal.input)] + s.terminal.previousCommands &&
      r.terminal.commandIndex == -1
    ensures r.view == s.view && r.stealthMode == s.stealthMode && r.isLoading == s.isLoading
    ensures |s.pending| <= |r.pending| <= |s.pending| + 1
  {
    Terminal.ExitExcludesSecret(s.terminal, Trim(s.terminal.input), IndexProps, dateText);
    Route(s, Terminal.Execute(s.terminal, s.terminal.input, IndexProps, dateText))
  }

  /**
    One event. Typing only replaces the input line; arrow keys only move
    through the previous commands; the view changes only by the toggle or the
    redirect timer, stealth mode only by the toggle or the secret timer; and
    only a submitted line can log a command.
   */
  function Step(s: State, e: Event): (r: State)
    requires Enabled(s, e)
    ensures e.Typed? ==>
      r.terminal.input == e.text && r.terminal.(input := s.terminal.input) == s.terminal && r.(terminal := s.terminal) == s
    ensures e.KeyPressed? ==>
      r.terminal.history == s.terminal.history && r.terminal.previousCommands == s.terminal.previousCommands &&
      r.(terminal := s.terminal) == s
    ensures r.view != s.view ==> e.ToggleViewClicked? || (e.TimerFired? && s.pending[e.index] == DashboardRedirect)
    ensures r.stealthMode != s.stealthMode ==> e.ToggleStealthClicked? || (e.TimerFired? && s.pending[e.index] == SecretCallback)
    ensures r.commandLog != s.commandLog ==> e.Submitted?
  {
    match e
    case ToggleViewClicked => ToggleView(s)
    case ToggleStealthClicked => ToggleStealthMode(s)
    case Typed(text) => s.(terminal := s.terminal.(input := text))
    case KeyPressed(k) => s.(terminal := Terminal.Navigate(s.terminal, k))
    case Submitted(d) => Submit(s, d)
    case TimerFired(i) => FireTimer(s, i)
  }

  /**
    What every reachable page state satisfies: the terminal's selection index
    is in range; while loading, nothing but the loading timer has happened;
    after loading, the loading timer is gone for good.
   */
  predicate Valid(s: State) {
    Terminal.Valid(s.terminal) &&
    (s.isLoading ==>
      s.pending == [LoadingDone] && s.terminal == Terminal.Init() && s.commandLog == [] &&
      s.view == TerminalView && !s.stealthMode) &&
    (!s.isLoading ==> LoadingDone !in s.pending)
  }

  /**
    Loading only ever ends: a step either keeps `isLoading` or turns it off,
    and it turns it off exactly when the loading timer fires.
   */
  lemma LoadingOnlyEnds(s: State, e: Event)
    requires Valid(s) && Enabled(s, e)
    ensures Step(s, e).isLoading ==> s.isLoading
    ensures s.isLoading && !Step(s, e).isLoading <==> s.isLoading && e.TimerFired?
  {
  }

  /** One submitted line adds at most one record to the command log, and only when the terminal reports it. */
  lemma SubmitLogsReportedCommands(s: State, dateText: string)
    requires Valid(s) && !s.isLoading
    ensures var line := Trim(s.terminal.input);
      var r := Submit(s, dateText);
      (!AllSpace(s.terminal.input) &&
       Terminal.FirstWord(line) in Terminal.CommandNames && Terminal.FirstWord(line) != "clear" ==>
         r.commandLog == s.commandLog +
           [CommandRecord(line, Terminal.OutputOf(line, dateText))]) &&
      (AllSpace(s.terminal.input) ||
       Terminal.FirstWord(line) !in Terminal.CommandNames || Terminal.FirstWord(line) == "clear" ==>
         r.commandLog == s.commandLog)
  {
  }

  /**
    The dashboard redirect is scheduled exactly when the trimmed line is
    `exit`; `exit` followed by arguments prints the exit message but stays.
   */
  lemma SubmitRedirectsOnlyOnExit(s: State, dateText: string)
    requires Valid(s) && !s.isLoading
    ensures DashboardRedirect in multiset(Submit(s, dateText).pending) - multiset(s.pending) <==>
      Trim(s.terminal.input) == "exit"
  {
    var o := Terminal.ExecuteTrimmed(s.terminal, Trim(s.terminal.input), IndexProps, dateText);
    Terminal.ExitReported(s.terminal, Trim(s.terminal.input), IndexProps, dateText);
    RouteRedirect(s, o);
  }

  /** The page starts a redirect timer exactly when the terminal reports the command line `exit`. */
  lemma RouteRedirect(s: State, o: Terminal.Outcome)
    ensures DashboardRedirect in multiset(Route(s, o).pending) - multiset(s.pending) <==>
      o.effects.notified.Some? && o.effects.notified.value.command == "exit"
  {
    var redirect: seq<Timer> :=
      if o.effects.notified.Some? && o.effects.notified.value.command == "exit" then [DashboardRedirect] else [];
    var secret: seq<Timer> := if o.effects.secretScheduled then [SecretCallback] else [];
    var r := Route(s, o);
    assert r.pending == s.pending + redirect + secret;
    assert multiset(r.pending) - multiset(s.pending) == multiset(redirect) + multiset(secret);
    assert DashboardRedirect !in multiset(secret);
  }

  /**
    `exit` followed by arguments (say `exit now`) prints the exit message and is
    logged, yet no redirect is scheduled: the page compares the whole line.
   */
  lemma ExitWithArgumentsStays(s: State, dateText: string)
    requires Valid(s) && !s.isLoading
    requires Terminal.FirstWord(Trim(s.terminal.input)) == "exit" && Trim(s.terminal.input) != "exit"
    ensures Submit(s, dateText).pending == s.pending
    ensures Submit(s, dateText).terminal.history ==
      s.terminal.history + [Terminal.Entry(Trim(s.terminal.input), Terminal.Line(Terminal.ExitLine))]
    ensures Submit(s, dateText).commandLog ==
      s.commandLog + [CommandRecord(Trim(s.terminal.input), Terminal.Line(Terminal.ExitLine))]
  {
    var line := Trim(s.terminal.input);
    assert line != "";
    var o := Terminal.ExecuteTrimmed(s.terminal, line, IndexProps, dateText);
    Terminal.ExitLineRuns(s.terminal, line, IndexProps, dateText);
    assert Route(s, o).pending == s.pending + [] + [];
  }

  /** `shadowrun` turns stealth mode on once its timer fires. */
  lemma ShadowrunSchedulesStealth(s: State, dateText: string)
    requires Valid(s) && !s.isLoading && Trim(s.terminal.input) == "shadowrun"
    ensures var r := Submit(s, dateText);
      |r.pending| == |s.pending| + 1 && r.pending[|r.pending| - 1] == SecretCallback &&
      FireTimer(r, |r.pending| - 1).stealthMode
  {
    var line := Trim(s.terminal.input);
    var o := Terminal.ExecuteTrimmed(s.terminal, line, IndexProps, dateText);
    Terminal.ShadowrunSchedules(s.terminal, line, IndexProps, dateText);
    RouteSecret(s, o);
  }

  /** A started secret timer that is not an `exit` report adds exactly that one timer. */
  lemma RouteSecret(s: State, o: Terminal.Outcome)
    requires o.effects.secretScheduled
    requires o.effects.notified.Some? ==> o.effects.notified.value.command != "exit"
    ensures Route(s, o).pending == s.pending + [SecretCallback]
  {
    assert Route(s, o).pending == s.pending + [] + [SecretCallback];
  }

  lemma RoutePreservesValid(s: State, o: Terminal.Outcome)
    requires Valid(s) && !s.isLoading && Terminal.Valid(o.state)
    ensures Valid(Route(s, o))
  {
  }

  lemma StepPreservesValid(s: State, e: Event)
    requires Valid(s) && Enabled(s, e)
    ensures Valid(Step(s, e))
  {
    match e
    case Submitted(d) =>
      var o := Terminal.Execute(s.terminal, s.terminal.input, IndexProps, d);
      Terminal.ExecutePreservesValid(s.terminal, s.terminal.input, IndexProps, d);
      RoutePreservesValid(s, o);
    case TimerFired(i) =>
      var r := FireTimer(s, i);
      assert multiset(r.pending)[LoadingDone] == 0;
    case KeyPressed(k) =>
    case _ =>
  }

  /** Runs a sequence of events; `None` when some event is not enabled where it occurs. */
  function Run(s: State, es: seq<Event>): Option<State>
    decreases |es|
  {
    if es == [] then Some(s)
    else if !Enabled(s, es[0]) then None
    else Run(Step(s, es[0]), es[1..])
  }

  function SubmitCount(es: seq<Event>): nat
    decreases |es|
  {
    if es == [] then 0 else (if es[0].Submitted? then 1 else 0) + SubmitCount(es[1..])
  }

  /**
    Every state reachable from the first render is valid, loading is over
    unless nothing but timers ran, and the command log holds at most one
    record per submitted line.
   */
  lemma {:induction false} RunInvariant(s: State, es: seq<Event>)
    requires Valid(s)
    requires Run(s, es).Some?
    ensures Valid(Run(s, es).value)
    ensures |Run(s, es).value.commandLog| <= |s.commandLog| + SubmitCount(es)
    ensures !s.isLoading ==> !Run(s, es).value.isLoading
    decreases |es|
  {
    if es != [] {
      StepPreservesValid(s, es[0]);
      var r := Step(s, es[0]);
      assert |r.commandLog| <= |s.commandLog| + (if es[0].Submitted? then 1 else 0);
      LoadingOnlyEnds(s, es[0]);
      RunInvariant(r, es[1..]);
    }
  }
}

=== FILE: dashboard.dfy ===
/**
  The dashboard's simulation: five interval timers (clock, metrics, logs,
  projects, security) and the delayed security reset, each firing as one
  explicit `Event`. Every `Math.random()` the source draws is a parameter of
  the event: `Math.floor(Math.random() * n)` becomes an integer in `[0, n)`,
  and a comparison `Math.random() > p` becomes a boolean. Dates are
  milliseconds since the epoch.
 */
module Dashboard {
  import opened Wrappers
  import opened Text
  import opened JsMath

  datatype LogType = Info | Warning | Error | Success

  datatype LogEntry = LogEntry(timestamp: int, message: string, kind: LogType)

  datatype Project = Project(name: string, status: string, progress: int, lastUpdate: int)

  datatype Network = Network(up: int, down: int)

  datatype State = State(
    currentTime: int,
    cpuUsage: int,
    memoryUsage: int,
    network: Network,
    logs: seq<LogEntry>,
    projects: seq<Project>,
    securityStatus: string,
    hackerTraces: int,
    pendingResets: nat)  // security-reset timers started and not yet fired

  const MaxLogs := 20

  const SecureStatus := "Secure"

  const AlertStatus := "\U{26A0}\U{FE0F} Alert"

  const AlertMessage := "Potential intrusion attempt detected"

  const CompletedStatus := "Completed"

  const MinuteMs := 60 * 1000

  const HourMs := 60 * MinuteMs

  // ---------------------------------------------------------------------------
  // initial state
  // ---------------------------------------------------------------------------

  function InitialProjects(now: int): seq<Project> {
    [ Project("Quantum Breach", "Active", 78, now - 2 * HourMs),
      Project("Neural Network", "Analyzing", 45, now - 30 * MinuteMs),
      Project("Blockchain Explorer", "Standby", 100, now - 5 * MinuteMs),
      Project("Stealth Scanner", "Scanning", 67, now - 15 * MinuteMs),
      Project("Encryption Engine", "Compiling", 92, now - 45 * MinuteMs) ]
  }

  /** The four seed logs, oldest first (later logs are put in front of them). */
  function InitialLogs(now: int): seq<LogEntry> {
    [ LogEntry(now - 2 * MinuteMs, "System startup complete", Success),
      LogEntry(now - 90 * 1000, "Initializing security protocols", Info),
      LogEntry(now - MinuteMs, "Detected unusual network activity", Warning),
      LogEntry(now - 30 * 1000, "Security countermeasures engaged", Info) ]
  }

  /** The state once the mount effect has seeded projects and logs at time `now`. */
  function Init(now: int): (s: State)
    ensures Valid(s)
    ensures s.hackerTraces == 0 && s.securityStatus == SecureStatus
    ensures s.cpuUsage == 0 && s.memoryUsage == 0 && s.network == Network(0, 0)
    ensures s.pendingResets == 0
  {
    State(now, 0, 0, Network(0, 0), InitialLogs(now), InitialProjects(now), SecureStatus, 0, 0)
  }

  // ---------------------------------------------------------------------------
  // random pickers
  // ---------------------------------------------------------------------------

  const LogMessages: seq<string> := [
    "System check complete",
    "Scanning for vulnerabilities",
    "Updated security protocols",
    "Connection established",
    "New encryption key generated",
    "Analyzing network traffic",
    "Firewall rules updated",
    "Background task completed",
    "Memory optimization performed",
    "New node discovered",
    "Cache cleared successfully",
    "Proxy configuration updated",
    "VPN tunnel established",
    "File integrity verified",
    "Authentication request processed",
    "Database backup completed",
    "API rate limit adjusted",
    "User session validated",
    "Remote access granted",
    "Logs archived successfully"
  ]

  /** `getRandomLogMessage` for the draw `Math.floor(Math.random() * 20)`. */
  function RandomLogMessage(draw: int): (m: string)
    requires 0 <= draw < |LogMessages|
    ensures m in LogMessages
  {
    LogMessages[draw]
  }

  /** Every message of the table is the pick of some draw. */
  lemma LogMessageReach(m: string)
    requires m in LogMessages
    ensures exists draw :: 0 <= draw < |LogMessages| && RandomLogMessage(draw) == m
  {
    var draw :| 0 <= draw < |LogMessages| && LogMessages[draw] == m;
    assert RandomLogMessage(draw) == m;
  }

  /** The weighted table of `getRandomLogType`: 5 info, 2 warning, 1 error, 3 success. */
  const LogTypeTable: seq<LogType> := [Info, Info, Info, Info, Info, Warning, Warning, Error, Success, Success, Success]

  /** `getRandomLogType` for the draw `Math.floor(Math.random() * 11)`. */
  function RandomLogType(draw: int): (t: LogType)
    requires 0 <= draw < |LogTypeTable|
    ensures t == Info <==> draw < 5
    ensures t == Warning <==> 5 <= draw < 7
    ensures t == Error <==> draw == 7
    ensures t == Success <==> 8 <= draw
  {
    LogTypeTable[draw]
  }

  /** The weights of the log-type table, as counts of draws. */
  lemma LogTypeWeights()
    ensures multiset(LogTypeTable)[Info] == 5
    ensures multiset(LogTypeTable)[Warning] == 2
    ensures multiset(LogTypeTable)[Error] == 1
    ensures multiset(LogTypeTable)[Success] == 3
  {
  }

  /** The log type as the source spells it. */
  function LogTypeName(t: LogType): string {
    match t
    case Info => "info"
    case Warning => "warning"
    case Error => "error"
    case Success => "success"
  }

  /** `getLogClass`: one class per log type, and the success class for anything else. */
  function GetLogClass(kind: string): (c: string)
    ensures c == "text-cyber-blue" <==> kind == "info"
    ensures c == "text-yellow-400" <==> kind == "warning"
    ensures c == "text-cyber-red" <==> kind == "error"
    ensures c == "text-cyber-primary" <==> kind !in {"info", "warning", "error"}
  {
    match kind
    case "info" => "text-cyber-blue"
    case "warning" => "text-yellow-400"
    case "error" => "text-cyber-red"
    case "success" => "text-cyber-primary"
    case _ => "text-cyber-primary"
  }

  /** Every log type gets its own colour, except that success shares the default. */
  lemma LogClassOfTypes(t: LogType)
    ensures GetLogClass(LogTypeName(t)) == "text-cyber-primary" <==> t == Success
  {
  }

  // ---------------------------------------------------------------------------
  // metrics
  // ---------------------------------------------------------------------------

  /**
    The four bounded integer draws of one metrics tick:
    `Math.floor(20 + r * 50)`, `Math.floor(40 + r * 30)`, `Math.floor(r * 10)`
    and `Math.floor(r * 15)` are `20 + cpu`, `40 + memory`, `up` and `down`.
   */
  datatype MetricsDraw = MetricsDraw(cpu: int, memory: int, up: int, down: int)

  predicate MetricsDrawOk(d: MetricsDraw) {
    0 <= d.cpu < 50 && 0 <= d.memory < 30 && 0 <= d.up < 10 && 0 <= d.down < 15
  }

  predicate MetricsInRange(cpu: int, memory: int, net: Network) {
    20 <= cpu <= 69 && 40 <= memory <= 69 && 0 <= net.up <= 9 && 0 <= net.down <= 14
  }

  function MetricsTick(s: State, d: MetricsDraw): (r: State)
    requires MetricsDrawOk(d)
    ensures MetricsInRange(r.cpuUsage, r.memoryUsage, r.network)
    ensures r.(cpuUsage := s.cpuUsage, memoryUsage := s.memoryUsage, network := s.network) == s
  {
    s.(cpuUsage := 20 + d.cpu, memoryUsage := 40 + d.memory, network := Network(d.up, d.down))
  }

  /** Every in-range reading is produced by some draw: the ranges are exact. */
  lemma MetricsRangeExact(s: State, cpu: int, memory: int, net: Network)
    requires MetricsInRange(cpu, memory, net)
    ensures var d := MetricsDraw(cpu - 20, memory - 40, net.up, net.down);
      MetricsDrawOk(d) && MetricsTick(s, d).cpuUsage == cpu &&
      MetricsTick(s, d).memoryUsage == memory && MetricsTick(s, d).network == net
  {
  }

  // ---------------------------------------------------------------------------
  // logs
  // ---------------------------------------------------------------------------

  /** `[entry, ...logs].slice(0, 20)`. */
  function PrependLog(logs: seq<LogEntry>, entry: LogEntry): (r: seq<LogEntry>)
    ensures |r| == if |logs| < MaxLogs then |logs| + 1 else MaxLogs
    ensures 1 <= |r| <= MaxLogs && |r| <= |logs| + 1
    ensures r[0] == entry
    ensures r[1..] == logs[..|r| - 1]
  {
    ([entry] + logs)[..if |logs| + 1 < MaxLogs then |logs| + 1 else MaxLogs]
  }

  /** One log tick: a random message of a random type, stamped `now`. */
  function LogTick(s: State, now: int, messageDraw: int, typeDraw: int): (r: State)
    requires 0 <= messageDraw < |LogMessages| && 0 <= typeDraw < |LogTypeTable|
    ensures 1 <= |r.logs| <= MaxLogs && |r.logs| <= |s.logs| + 1
    ensures r.logs[0].timestamp == now && r.logs[0].message in LogMessages
    ensures r.logs[0].message == RandomLogMessage(messageDraw)
    ensures r.logs[0].kind == RandomLogType(typeDraw)
    ensures r.logs[1..] == s.logs[..|r.logs| - 1]
    ensures r.(logs := s.logs) == s
  {
    s.(logs := PrependLog(s.logs, LogEntry(now, RandomLogMessage(messageDraw), RandomLogType(typeDraw))))
  }

  // ---------------------------------------------------------------------------
  // projects
  // ---------------------------------------------------------------------------

  /** `updateProgress` with `change = Math.floor(Math.random() * 10)`. */
  function UpdateProgress(current: int, change: int): (r: int)
    requires 0 <= change <= 9
    ensures r <= 100
    ensures current >= 100 ==> r == 100
    ensures r >= Min(current, 100)
    ensures current < 100 ==> r - current <= 9
  {
    if current >= 100 then 100
    else Min(current + change, 100)
  }

  /** Every progress value the source can reach from `current` in one tick is reachable. */
  lemma UpdateProgressReach(current: int, target: int)
    requires current < 100 && current <= target <= Min(current + 9, 100)
    ensures 0 <= target - current <= 9 && UpdateProgress(current, target - current) == target
  {
  }

  const Statuses: seq<string> := ["Active", "Analyzing", "Scanning", "Compiling", "Processing", "Debugging"]

  /**
    `updateStatus`: `keep` stands for `Math.random() > 0.2` and `pick` for
    `Math.floor(Math.random() * 6)`.
   */
  function UpdateStatus(current: string, progress: int, keep: bool, pick: int): (r: string)
    requires 0 <= pick < |Statuses|
    ensures progress >= 100 ==> r == CompletedStatus
    ensures progress < 100 && keep ==> r == current
    ensures progress < 100 && !keep ==> r in Statuses
  {
    if progress >= 100 then CompletedStatus
    else if keep then current
    else Statuses[pick]
  }

  /** Below 100, a redraw can land on any of the six statuses. */
  lemma UpdateStatusReach(current: string, progress: int, st: string)
    requires progress < 100 && st in Statuses
    ensures exists pick :: 0 <= pick < |Statuses| && UpdateStatus(current, progress, false, pick) == st
  {
    var pick :| 0 <= pick < |Statuses| && Statuses[pick] == st;
    assert UpdateStatus(current, progress, false, pick) == st;
  }

  /** The random choices of one project in one project tick; `touch` is `Math.random() > 0.7`. */
  datatype ProjectDraw = ProjectDraw(change: int, keep: bool, pick: int, touch: bool)

  predicate ProjectDrawOk(d: ProjectDraw) {
    0 <= d.change <= 9 && 0 <= d.pick < |Statuses|
  }

  /** One project in one tick. The status is decided from the progress BEFORE this tick's update. */
  function TickProject(p: Project, d: ProjectDraw, now: int): (q: Project)
    requires ProjectDrawOk(d)
    ensures q.name == p.name
    ensures q.progress == UpdateProgress(p.progress, d.change)
    ensures q.status == UpdateStatus(p.status, p.progress, d.keep, d.pick)
    ensures d.touch ==> q.lastUpdate == now
    ensures !d.touch ==> q.lastUpdate == p.lastUpdate
  {
    Project(p.name,
            UpdateStatus(p.status, p.progress, d.keep, d.pick),
            UpdateProgress(p.progress, d.change),
            if d.touch then now else p.lastUpdate)
  }

  /** The project tick: every project is updated in place. */
  function ProjectTick(s: State, draws: seq<ProjectDraw>, now: int): (r: State)
    requires |draws| == |s.projects|
    requires forall i :: 0 <= i < |draws| ==> ProjectDrawOk(draws[i])
    ensures |r.projects| == |s.projects|
    ensures forall i :: 0 <= i < |r.projects| ==>
      r.projects[i].name == s.projects[i].name &&
      (s.projects[i].progress >= 100 ==> r.projects[i].status == CompletedStatus && r.projects[i].progress == 100) &&
      Min(s.projects[i].progress, 100) <= r.projects[i].progress <= 100
    ensures forall i :: 0 <= i < |r.projects| ==> r.projects[i] == TickProject(s.projects[i], draws[i], now)
    ensures r.(projects := s.projects) == s
  {
    s.(projects := seq(|s.projects|, i requires 0 <= i < |s.projects| => TickProject(s.projects[i], draws[i], now)))
  }

  /**
    Because the status is decided from the old progress, a project below 100
    is never `Completed` after a tick, even when the tick brings it to 100;
    once at 100, the next tick makes it `Completed`, whatever the draws.
   */
  lemma CompletionLagsOneTick(p: Project, d: ProjectDraw, d2: ProjectDraw, now: int, later: int)
    requires ProjectDrawOk(d) && ProjectDrawOk(d2)
    requires p.progress < 100 && p.status != CompletedStatus
    ensures TickProject(p, d, now).status != CompletedStatus
    ensures TickProject(p, d, now).progress == 100 ==>
      TickProject(TickProject(p, d, now), d2, later).status == CompletedStatus
  {
  }

  // ---------------------------------------------------------------------------
  // security
  // ---------------------------------------------------------------------------

  /** One security tick; `alert` stands for `Math.random() > 0.9`. */
  function SecurityTick(s: State, now: int, alert: bool): (r: State)
    ensures !alert ==> r == s
    ensures alert ==> r.hackerTraces == s.hackerTraces + 1 && r.securityStatus == AlertStatus
    ensures alert ==> 1 <= |r.logs| <= MaxLogs && |r.logs| <= |s.logs| + 1 && r.logs[0] == LogEntry(now, AlertMessage, Error)
    ensures alert ==> r.logs[1..] == s.logs[..|r.logs| - 1]
    ensures alert ==> r.pendingResets == s.pendingResets + 1
    ensures r.(securityStatus := s.securityStatus, hackerTraces := s.hackerTraces,
               logs := s.logs, pendingResets := s.pendingResets) == s
  {
    if alert then
      s.(securityStatus := AlertStatus,
         hackerTraces := s.hackerTraces + 1,
         logs := PrependLog(s.logs, LogEntry(now, AlertMessage, Error)),
         pendingResets := s.pendingResets + 1)
    else s
  }

  /** The reset timer started by an alert fires five seconds later. */
  function SecurityReset(s: State): (r: State)
    requires s.pendingResets > 0
    ensures r.securityStatus == SecureStatus && r.pendingResets == s.pendingResets - 1
    ensures r.(securityStatus := s.securityStatus, pendingResets := s.pendingResets) == s
  {
    s.(securityStatus := SecureStatus, pendingResets := s.pendingResets - 1)
  }

  // ---------------------------------------------------------------------------
  // relative time
  // ---------------------------------------------------------------------------

  /** `Math.floor((now - date) / 1000)`: whole seconds elapsed, rounded down. */
  function ElapsedSeconds(now: int, date: int): (sec: int)
    ensures sec * 1000 <= now - date < sec * 1000 + 1000
  {
    (now - date) / 1000
  }

  /**
    `timeAgo` applied to a number of whole seconds: reading the text back
    gives the seconds below a minute, and otherwise the whole minutes, hours
    or days, rounded down.
   */
  function TimeAgo(seconds: int): (shown: string)
    ensures seconds < 60 ==> ReadTimeAgo(shown) == Some((seconds, 's'))
    ensures 60 <= seconds < 3600 ==> ReadTimeAgo(shown) == Some((seconds / 60, 'm'))
    ensures 3600 <= seconds < 86400 ==> ReadTimeAgo(shown) == Some((seconds / 3600, 'h'))
    ensures 86400 <= seconds ==> ReadTimeAgo(shown) == Some((seconds / 86400, 'd'))
  {
    if seconds < 60 then
      ReadLabel(seconds, 's');
      AgoText(seconds, 's')
    else if seconds < 3600 then
      ReadLabel(seconds / 60, 'm');
      AgoText(seconds / 60, 'm')
    else if seconds < 86400 then
      ReadLabel(seconds / 3600, 'h');
      AgoText(seconds / 3600, 'h')
    else
      ReadLabel(seconds / 86400, 'd');
      AgoText(seconds / 86400, 'd')
  }

  /** The template `${n}<unit> ago`. */
  function AgoText(n: int, unit: char): string {
    IntToString(n) + [unit] + " ago"
  }

  function UnitSeconds(unit: char): int {
    match unit
    case 's' => 1
    case 'm' => 60
    case 'h' => 3600
    case _ => 86400
  }

  /** Reads a `"<n><unit> ago"` string back into its number and unit letter. */
  function ReadTimeAgo(shown: string): Option<(int, char)> {
    if |shown| < 6 || shown[|shown| - 4..] != " ago" then None
    else
      var body := shown[..|shown| - 4];
      var unit := body[|body| - 1];
      if unit !in "smhd" then None
      else match ParseInt(body[..|body| - 1])
        case None => None
        case Some(n) => Some((n, unit))
  }

  /** The reader accepts only the exact template text: a label is fixed by what it reads back as. */
  lemma ReadTimeAgoExact(shown: string, n: int, unit: char)
    requires ReadTimeAgo(shown) == Some((n, unit))
    ensures shown == AgoText(n, unit)
  {
    var body := shown[..|shown| - 4];
    var digits := body[..|body| - 1];
    ParseIntCanonical(digits, n);
    assert body == digits + [unit];
    assert shown == body + " ago";
  }

  lemma ReadLabel(n: int, unit: char)
    requires unit in "smhd"
    ensures ReadTimeAgo(AgoText(n, unit)) == Some((n, unit))
  {
    var digits := IntToString(n);
    var shown := digits + [unit] + " ago";
    IntRoundTrip(n);
    assert |digits| >= 1;
    assert shown[|shown| - 4..] == " ago";
    assert shown[..|shown| - 4] == digits + [unit];
    assert (digits + [unit])[..|digits|] == digits;
  }

  /**
    What a `timeAgo` string means: under a minute it shows the exact seconds;
    otherwise it shows the whole number of the largest unit (minutes, hours,
    days) that fits, rounded down, so never "60m" or "24h".
   */
  lemma TimeAgoMeaning(seconds: int)
    ensures ReadTimeAgo(TimeAgo(seconds)).Some?
    ensures var (n, unit) := ReadTimeAgo(TimeAgo(seconds)).value;
      (seconds < 60 ==> unit == 's' && n == seconds) &&
      (seconds >= 60 ==>
        unit != 's' && 1 <= n &&
        n * UnitSeconds(unit) <= seconds < (n + 1) * UnitSeconds(unit) &&
        (unit == 'm' ==> n < 60) && (unit == 'h' ==> n < 24))
  {
    if 60 <= seconds < 3600 {
      assert 1 <= seconds / 60 < 60;
    } else if 3600 <= seconds < 86400 {
      assert 1 <= seconds / 3600 < 24;
    } else if 86400 <= seconds {
      assert 1 <= seconds / 86400;
    }
  }

  // ---------------------------------------------------------------------------
  // the simulation as a transition system
  // ---------------------------------------------------------------------------

  datatype Event =
    | ClockTick(now: int)
    | MetricsFired(metrics: MetricsDraw)
    | LogFired(now: int, messageDraw: int, typeDraw: int)
    | ProjectsFired(now: int, draws: seq<ProjectDraw>)
    | SecurityFired(now: int, alert: bool)
    | ResetFired

  /** An event can happen: its draws are in range and a reset only fires when one is pending. */
  predicate Enabled(s: State, e: Event) {
    match e
    case ClockTick(_) => true
    case MetricsFired(d) => MetricsDrawOk(d)
    case LogFired(_, m, t) => 0 <= m < |LogMessages| && 0 <= t < |LogTypeTable|
    case ProjectsFired(_, ds) =>
      |ds| == |s.projects| && forall i :: 0 <= i < |ds| ==> ProjectDrawOk(ds[i])
    case SecurityFired(_, _) => true
    case ResetFired => s.pendingResets > 0
  }

  /**
    One timer callback. Only the clock moves the time, only the log and
    security callbacks touch the log (adding one entry, capped at 20), and
    only an alert adds a hacker trace.
   */
  function Step(s: State, e: Event): (r: State)
    requires Enabled(s, e)
    ensures !e.ClockTick? ==> r.currentTime == s.currentTime
    ensures !e.LogFired? && !e.SecurityFired? ==> r.logs == s.logs
    ensures |r.logs| <= Max(|s.logs|, MaxLogs)
    ensures r.hackerTraces == s.hackerTraces + (if e.SecurityFired? && e.alert then 1 else 0)
    ensures |r.projects| == |s.projects|
  {
    match e
    case ClockTick(now) => s.(currentTime := now)
    case MetricsFired(d) => MetricsTick(s, d)
    case LogFired(now, m, t) => LogTick(s, now, m, t)
    case ProjectsFired(now, ds) => ProjectTick(s, ds, now)
    case SecurityFired(now, alert) => SecurityTick(s, now, alert)
    case ResetFired => SecurityReset(s)
  }

  /** Names of the five seeded projects, in order. */
  const ProjectNames: seq<string> := ["Quantum Breach", "Neural Network", "Blockchain Explorer", "Stealth Scanner", "Encryption Engine"]

  /**
    What every reachable dashboard state satisfies: at most 20 logs, the same
    five projects in the same order with progress in [0, 100], metrics either
    still at their initial zeros or inside their ranges, and a non-negative
    trace count.
   */
  predicate Valid(s: State) {
    |s.logs| <= MaxLogs &&
    |s.projects| == |ProjectNames| &&
    (forall i :: 0 <= i < |s.projects| ==>
      s.projects[i].name == ProjectNames[i] && 0 <= s.projects[i].progress <= 100) &&
    ((s.cpuUsage == 0 && s.memoryUsage == 0 && s.network == Network(0, 0)) ||
     MetricsInRange(s.cpuUsage, s.memoryUsage, s.network)) &&
    s.hackerTraces >= 0
  }

  /** Every event keeps the state valid, and only an alert adds a trace, exactly one. */
  lemma StepPreservesValid(s: State, e: Event)
    requires Valid(s) && Enabled(s, e)
    ensures Valid(Step(s, e))
    ensures Step(s, e).hackerTraces == s.hackerTraces + (if e.SecurityFired? && e.alert then 1 else 0)
  {
    var r := Step(s, e);
    if e.ProjectsFired? {
      forall i | 0 <= i < |r.projects|
        ensures r.projects[i].name == ProjectNames[i] && 0 <= r.projects[i].progress <= 100
      {
        assert r.projects[i] == TickProject(s.projects[i], e.draws[i], e.now);
      }
    }
  }

  /** Runs a sequence of events; `None` when some event is not enabled where it occurs. */
  function Run(s: State, es: seq<Event>): Option<State>
    decreases |es|
  {
    if es == [] then Some(s)
    else if !Enabled(s, es[0]) then None
    else Run(Step(s, es[0]), es[1..])
  }

  function AlertCount(es: seq<Event>): nat
    decreases |es|
  {
    if es == [] then 0
    else (if es[0].SecurityFired? && es[0].alert then 1 else 0) + AlertCount(es[1..])
  }

  /**
    Over any run the state stays valid and the trace counter grows by exactly
    the number of alerts: it only ever increases, by one per alert.
   */
  lemma {:induction false} RunInvariant(s: State, es: seq<Event>)
    requires Valid(s)
    requires Run(s, es).Some?
    ensures Valid(Run(s, es).value)
    ensures Run(s, es).value.hackerTraces == s.hackerTraces + AlertCount(es)
    decreases |es|
  {
    if es != [] {
      StepPreservesValid(s, es[0]);
      RunInvariant(Step(s, es[0]), es[1..]);
    }
  }
}

=== FILE: jsmath.dfy ===
/** `Math.min` and `Math.max` on integers. */
module JsMath {

  function Min(a: int, b: int): int {
    if a <= b then a else b
  }

  function Max(a: int, b: int): int {
    if a >= b then a else b
  }

}

=== FILE: terminal.dfy ===
/**
  The terminal component: a fixed table of commands keyed by the first word of
  the trimmed input line, the displayed history of `{command, output}` entries,
  the list of previously entered commands (newest first) and the ArrowUp /
  ArrowDown navigation through that list.

  Side effects that leave the component (the parent's callback, the delayed
  secret callback, the "hack" toast) are returned as data in `Effects`.
 */
module Terminal {
  import opened Wrappers
  import opened Text
  import opened JsMath

  /**
    A canned multi-line block of the command table. The blocks are named here
    and spelled out by `Block`, so that reasoning about which command produced
    which block does not have to carry the text of every block along.
   */
  datatype Canned =
    | WelcomeBlock | HelpBlock | WhoamiBlock
    | ProjectsDir | SkillsDir | SecretsDir | RootDir
    | AboutFile | ContactFile | ReadmeFile | SecretsFile
    | ProjectsBlock | SkillsBlock | ContactBlock | AboutBlock | ShadowrunBlock

  /** The output of one command: a canned block, a single line, or nothing at all. */
  datatype Output = Lines(block: Canned) | Line(text: string) | NoOutput

  /** One displayed block: the command line as typed (trimmed) and its output. */
  datatype Entry = Entry(command: string, output: Output)

  datatype State = State(
    input: string,
    history: seq<Entry>,
    commandIndex: int,
    previousCommands: seq<string>)

  /** Which optional callbacks the parent passed in. */
  datatype Props = Props(hasOnCommandExecuted: bool, hasOnSecretCommand: bool)

  /**
    The arguments of one `onCommandExecuted(command, output)` call; the string
    passed as `output` is `Joined(output)`.
   */
  datatype Notification = Notification(command: string, output: Output)

  datatype Effects = Effects(
    notified: Option<Notification>,  // onCommandExecuted was called with these arguments
    secretScheduled: bool,           // a 1-second timer that calls onSecretCommand was started
    hackToast: bool)                 // the "Hack Initiated" toast was shown

  const NoEffects := Effects(None, false, false)

  datatype Outcome = Outcome(state: State, effects: Effects)

  datatype Key = ArrowUp | ArrowDown | OtherKey

  // ---------------------------------------------------------------------------
  // canned output
  // ---------------------------------------------------------------------------

  const WelcomeLines: seq<string> := [
    "┌────────────────────────────────────────────────────┐",
    "│ CypherTrax Terminal v1.0.0                         │",
    "│ Access: Unrestricted                               │",
    "│ Connection: Secure                                 │",
    "└────────────────────────────────────────────────────┘",
    "",
    "Welcome to CypherTrax Terminal Interface.",
    "Type \"help\" to see available commands.",
    ""
  ]

  const HelpLines: seq<string> := [
    "Available commands:",
    "  help - Show this help message",
    "  clear - Clear the terminal",
    "  whoami - Display user information",
    "  ls [dir] - List files in directory",
    "  cat <file> - Show file contents",
    "  projects - Show projects list",
    "  skills - Show skills list",
    "  contact - Show contact information",
    "  about - About this terminal",
    "  echo <message> - Print a message",
    "  date - Show current date and time",
    "  uname - Show system information",
    "  exit - Exit terminal (redirects to dashboard)"
  ]

  const WhoamiLines: seq<string> := [
    "┌──────────────────────────────────────────────┐",
    "│ CyberSec Specialist & Full-Stack Developer   │",
    "│ ID: CYPH-3R-7R4X                             │",
    "│ Access Level: Administrator                  │",
    "│ Status: Online                               │",
    "└──────────────────────────────────────────────┘",
    "",
    "Type \"skills\" or \"projects\" to learn more."
  ]

  const ProjectsDirLines: seq<string> := [
    "Directory: ./projects/",
    "  quantum_breach.exe",
    "  neural_network.py",
    "  blockchain_explorer.js",
    "  stealth_scanner.sh",
    "  encryption_engine.rs"
  ]

  const SkillsDirLines: seq<string> := [
    "Directory: ./skills/",
    "  web_exploitation.md",
    "  penetration_testing.md",
    "  cryptography.md",
    "  reverse_engineering.md",
    "  network_security.md"
  ]

  const SecretsDirLines: seq<string> := [
    "Directory: ./secrets/",
    "  access_codes.txt [encrypted]",
    "  hidden_projects.json [encrypted]",
    "  .shadow_key [hidden]"
  ]

  const RootDirLines: seq<string> := [
    "Directory: ./",
    "  projects/",
    "  skills/",
    "  about.txt",
    "  contact.md",
    "  README.md",
    "  secrets/ [restricted]"
  ]

  const AboutFileLines: seq<string> := [
    "# CypherTrax Terminal v1.0.0",
    "",
    "A cyberpunk-themed interactive portfolio terminal.",
    "Navigate through different sections using commands.",
    "",
    "This terminal is part of a larger hacker-themed portfolio.",
    "Type \"help\" to see available commands."
  ]

  const ContactFileLines: seq<string> := [
    "## Contact Information",
    "",
    "- Email: contact@cyphertrax.net",
    "- Matrix: @cypher:matrix.org",
    "- Signal: [Encrypted]",
    "- GitHub: github.com/cyphertrax",
    "",
    "For secure communication, use PGP key below:",
    "```",
    "BEGIN PGP PUBLIC KEY BLOCK",
    "[... Key data redacted for security ...]",
    "END PGP PUBLIC KEY BLOCK",
    "```"
  ]

  const ReadmeFileLines: seq<string> := [
    "# CypherTrax Portfolio README",
    "",
    "Welcome to my digital playground. This terminal-based UI",
    "allows you to navigate through my portfolio and projects",
    "using familiar command-line interfaces.",
    "",
    "## Navigation",
    "Use \"ls\" to view directories and \"cat\" for viewing files.",
    "",
    "## Hidden Content",
    "Some content requires special access. Keep exploring.",
    "",
    "## Dashboard Access",
    "Type \"exit\" to switch to the graphical dashboard view."
  ]

  const SecretsFileLines: seq<string> := [
    "ACCESS DENIED: Insufficient privileges.",
    "Authentication required for access to encrypted content.",
    "",
    "Hint: Try entering the secret command \"shadowrun\"."
  ]

  const CatUsageLine := "Error: No file specified. Usage: cat <filename>"

  const ProjectsLines: seq<string> := [
    "┌──────────────────────────────────────────────────────────────┐",
    "│ PROJECT LIST                                                 │",
    "├──────────────────────────────────────────────────────────────┤",
    "│ 1. Quantum Breach - Advanced penetration testing framework   │",
    "│ 2. Neural Network - AI-powered data analysis tool            │",
    "│ 3. Blockchain Explorer - Cryptocurrency analysis platform    │",
    "│ 4. Stealth Scanner - Network vulnerability detection system  │",
    "│ 5. Encryption Engine - Military-grade encryption tool        │",
    "└──────────────────────────────────────────────────────────────┘",
    "",
    "Use \"ls projects\" and \"cat <project_name>\" for more details."
  ]

  const SkillsLines: seq<string> := [
    "┌──────────────────────────────────────────────────────┐",
    "│ SKILL SET                                            │",
    "├──────────────────────────────────────────────────────┤",
    "│ » Web Exploitation         [██████████]     100%     │",
    "│ » Penetration Testing      [████████__]      80%     │",
    "│ » Cryptography             [███████___]      70%     │",
    "│ » Reverse Engineering      [██████____]      60%     │",
    "│ » Network Security         [█████████_]      90%     │",
    "│ » Full-Stack Development   [██████████]     100%     │",
    "│ » Cloud Architecture       [████████__]      80%     │",
    "└──────────────────────────────────────────────────────┘"
  ]

  const ContactLines: seq<string> := [
    "┌──────────────────────────────────────────────┐",
    "│ CONTACT INFORMATION                          │",
    "├──────────────────────────────────────────────┤",
    "│ Email: contact@cyphertrax.net               │",
    "│ Matrix: @cypher:matrix.org                   │",
    "│ Signal: [Encrypted]                          │",
    "│ GitHub: github.com/cyphertrax                │",
    "└──────────────────────────────────────────────┘",
    "",
    "For secure communication, encrypt messages using PGP."
  ]

  const AboutLines: seq<string> := [
    "┌──────────────────────────────────────────────────────────────┐",
    "│ CypherTrax Terminal Interface v1.0.0                         │",
    "├──────────────────────────────────────────────────────────────┤",
    "│ A cyberpunk-themed terminal-based portfolio interface.       │",
    "│ Developed using React, TypeScript, and custom CSS.           │",
    "│ Navigate through sections using familiar terminal commands.  │",
    "│                                                              │",
    "│ Features:                                                    │",
    "│ - Interactive command line                                   │",
    "│ - Project showcase                                           │",
    "│ - Skill demonstrations                                       │",
    "│ - Hidden content                                             │",
    "│ - Cyberpunk aesthetics                                       │",
    "└──────────────────────────────────────────────────────────────┘"
  ]

  const UnameLine := "CypherTrax-OS v1.0.0 (React/TypeScript) on Browser"

  const ExitLine := "Exiting terminal... Redirecting to dashboard..."

  const ShadowrunLines: seq<string> := [
    "> INITIATING SECURE CONNECTION",
    "> BYPASSING SECURITY PROTOCOLS",
    "> ACCESSING SHADOW NETWORK",
    "...",
    "> ACCESS GRANTED",
    "",
    "Welcome to the shadows, runner. Stealth mode activated.",
    "Redirecting to secure channel..."
  ]

  const HackLine := "Initiating hack sequence..."

  /** The text of a canned block. */
  function Block(c: Canned): seq<string> {
    match c
    case WelcomeBlock => WelcomeLines
    case HelpBlock => HelpLines
    case WhoamiBlock => WhoamiLines
    case ProjectsDir => ProjectsDirLines
    case SkillsDir => SkillsDirLines
    case SecretsDir => SecretsDirLines
    case RootDir => RootDirLines
    case AboutFile => AboutFileLines
    case ContactFile => ContactFileLines
    case ReadmeFile => ReadmeFileLines
    case SecretsFile => SecretsFileLines
    case ProjectsBlock => ProjectsLines
    case SkillsBlock => SkillsLines
    case ContactBlock => ContactLines
    case AboutBlock => AboutLines
    case ShadowrunBlock => ShadowrunLines
  }

  /** The lines an output shows on screen (`output: string[]` in the component). */
  function Render(o: Output): seq<string> {
    match o
    case Lines(c) => Block(c)
    case Line(text) => [text]
    case NoOutput => []
  }

  /** `output.join('\n')`: the string handed to the parent's callback. */
  function Joined(o: Output): string {
    Join(Render(o), '\n')
  }

  /** A single-line output reaches the parent as that line, and no output as the empty string. */
  lemma JoinedLine(text: string)
    ensures Joined(Line(text)) == text
    ensures Joined(NoOutput) == ""
  {
  }

  function NotFoundLine(command: string): string {
    "Command not found: " + command + ". Type \"help\" for available commands."
  }

  function FileNotFoundLine(file: string): string {
    "Error: File not found: " + file
  }

  // ---------------------------------------------------------------------------
  // the command table
  // ---------------------------------------------------------------------------

  /** The keys of the command table; `hack` is deliberately not among them. */
  const CommandNames: set<string> := {
    "help", "clear", "whoami", "ls", "cat", "projects", "skills", "contact",
    "about", "echo", "date", "uname", "exit", "shadowrun"
  }

  /** `args[0] || ''`: the first argument, or the empty string when it is absent. */
  function FirstArg(args: seq<string>): string {
    if |args| > 0 then args[0] else ""
  }

  /** `ls [dir]`: three named directories; anything else, or nothing, lists the root. */
  function Ls(args: seq<string>): (r: Output)
    ensures FirstArg(args) !in {"projects", "skills", "secrets"} <==> r == Lines(RootDir)
    ensures FirstArg(args) == "projects" <==> r == Lines(ProjectsDir)
    ensures FirstArg(args) == "skills" <==> r == Lines(SkillsDir)
    ensures FirstArg(args) == "secrets" <==> r == Lines(SecretsDir)
  {
    var dir := FirstArg(args);
    if dir == "projects" then Lines(ProjectsDir)
    else if dir == "skills" then Lines(SkillsDir)
    else if dir == "secrets" then Lines(SecretsDir)
    else Lines(RootDir)
  }

  const CatFiles: set<string> := {"about.txt", "contact.md", "README.md", "secrets.txt"}

  /** `cat <file>`: four known files, a usage error without arguments, otherwise a not-found error. */
  function Cat(args: seq<string>): (r: Output)
    ensures r.Lines? <==> FirstArg(args) in CatFiles
    ensures FirstArg(args) == "about.txt" <==> r == Lines(AboutFile)
    ensures FirstArg(args) == "contact.md" <==> r == Lines(ContactFile)
    ensures FirstArg(args) == "README.md" <==> r == Lines(ReadmeFile)
    ensures FirstArg(args) == "secrets.txt" <==> r == Lines(SecretsFile)
    ensures |args| == 0 ==> r == Line(CatUsageLine)
    ensures |args| > 0 && args[0] !in CatFiles ==> r == Line(FileNotFoundLine(args[0]))
  {
    var file := FirstArg(args);
    if file == "about.txt" then Lines(AboutFile)
    else if file == "contact.md" then Lines(ContactFile)
    else if file == "README.md" then Lines(ReadmeFile)
    else if file == "secrets.txt" then Lines(SecretsFile)
    else if |args| == 0 then Line(CatUsageLine)
    else Line(FileNotFoundLine(file))
  }

  /**
    `echo <message>`: the arguments joined back with single spaces, as one
    line from which splitting on spaces recovers arguments that hold none.
   */
  function Echo(args: seq<string>): (r: Output)
    ensures r.Line?
    ensures |args| >= 1 && (forall i :: 0 <= i < |args| ==> ' ' !in args[i]) ==> Split(r.text, ' ') == args
  {
    if |args| >= 1 && (forall i :: 0 <= i < |args| ==> ' ' !in args[i]) then
      SplitJoin(args, ' ');
      Line(Join(args, ' '))
    else Line(Join(args, ' '))
  }

  /**
    Looks a command up in the table and runs it. `dateText` stands for the
    host's `new Date().toString()`, which depends on the clock and locale.
   */
  function RunCommand(command: string, args: seq<string>, dateText: string): (out: Option<Output>)
    ensures out.Some? <==> command in CommandNames
    ensures out == Some(NoOutput) <==> command == "clear"
    // the commands that take arguments hand them on
    ensures command == "ls" ==> out == Some(Ls(args))
    ensures command == "cat" ==> out == Some(Cat(args))
    ensures command == "echo" ==> out == Some(Echo(args))
    // the canned blocks
    ensures command == "help" ==> out == Some(Lines(HelpBlock))
    ensures command == "whoami" ==> out == Some(Lines(WhoamiBlock))
    ensures command == "projects" ==> out == Some(Lines(ProjectsBlock))
    ensures command == "skills" ==> out == Some(Lines(SkillsBlock))
    ensures command == "contact" ==> out == Some(Lines(ContactBlock))
    ensures command == "about" ==> out == Some(Lines(AboutBlock))
    ensures command == "shadowrun" ==> out == Some(Lines(ShadowrunBlock))
    // the single lines
    ensures command == "date" ==> out == Some(Line(dateText))
    ensures command == "uname" ==> out == Some(Line(UnameLine))
    ensures command == "exit" ==> out == Some(Line(ExitLine))
  {
    if command == "help" then Some(Lines(HelpBlock))
    else if command == "clear" then Some(NoOutput)
    else if command == "whoami" then Some(Lines(WhoamiBlock))
    else if command == "ls" then Some(Ls(args))
    else if command == "cat" then Some(Cat(args))
    else if command == "projects" then Some(Lines(ProjectsBlock))
    else if command == "skills" then Some(Lines(SkillsBlock))
    else if command == "contact" then Some(Lines(ContactBlock))
    else if command == "about" then Some(Lines(AboutBlock))
    else if command == "echo" then Some(Echo(args))
    else if command == "date" then Some(Line(dateText))
    else if command == "uname" then Some(Line(UnameLine))
    else if command == "exit" then Some(Line(ExitLine))
    else if command == "shadowrun" then Some(Lines(ShadowrunBlock))
    else None
  }

  // ---------------------------------------------------------------------------
  // executing a line
  // ---------------------------------------------------------------------------

  /** `trimmed.split(' ')[0]`. */
  function FirstWord(trimmed: string): string {
    Split(trimmed, ' ')[0]
  }

  /** `trimmed.split(' ').slice(1)`. */
  function Arguments(trimmed: string): seq<string> {
    Split(trimmed, ' ')[1..]
  }

  /** The state after mounting: one welcome block, no previous commands, no selection. */
  function Init(): (t: State)
    ensures Valid(t)
    ensures t.input == "" && t.commandIndex == -1 && t.previousCommands == []
    ensures t.history == [Entry("", Lines(WelcomeBlock))]
  {
    State("", [Entry("", Lines(WelcomeBlock))], -1, [])
  }

  /** The selection index is either -1 (nothing selected) or an index of `previousCommands`. */
  predicate Valid(t: State) {
    -1 <= t.commandIndex < |t.previousCommands|
  }

  /** Output of the line `trimmed`, whether its first word names a command, `hack`, or nothing. */
  function OutputOf(trimmed: string, dateText: string): (r: Output)
    ensures FirstWord(trimmed) !in CommandNames && FirstWord(trimmed) != "hack" ==>
      r == Line(NotFoundLine(FirstWord(trimmed)))
    ensures FirstWord(trimmed) == "hack" ==> r == Line(HackLine)
    ensures FirstWord(trimmed) in CommandNames ==> Some(r) == RunCommand(FirstWord(trimmed), Arguments(trimmed), dateText)
  {
    match RunCommand(FirstWord(trimmed), Arguments(trimmed), dateText)
    case Some(out) => out
    case None => if FirstWord(trimmed) == "hack" then Line(HackLine) else Line(NotFoundLine(FirstWord(trimmed)))
  }

  /**
    `executeCommand(cmd)` once the line is trimmed, with the parent's callbacks
    as described by `props`.
   */
  function ExecuteTrimmed(t: State, trimmed: string, props: Props, dateText: string): (o: Outcome)
    // an empty line changes nothing and fires nothing
    ensures trimmed == "" ==> o == Outcome(t, NoEffects)
    // any other line is remembered, newest first, and the selection is reset
    ensures trimmed != "" ==>
      o.state.previousCommands == [trimmed] + t.previousCommands && o.state.commandIndex == -1
    // `clear` empties the display, keeps the input line and tells nobody
    ensures trimmed != "" && FirstWord(trimmed) == "clear" ==>
      o.state.history == [] && o.state.input == t.input && o.effects == NoEffects
    // every other line appends exactly one entry and empties the input line
    ensures trimmed != "" && FirstWord(trimmed) != "clear" ==>
      o.state.input == "" &&
      o.state.history == t.history + [Entry(trimmed, OutputOf(trimmed, dateText))]
    // the parent hears of exactly the table commands other than `clear`
    ensures o.effects.notified.Some? <==>
      trimmed != "" && FirstWord(trimmed) in CommandNames && FirstWord(trimmed) != "clear" && props.hasOnCommandExecuted
    ensures o.effects.notified.Some? ==>
      o.effects.notified.value == Notification(trimmed, OutputOf(trimmed, dateText))
    ensures o.effects.secretScheduled <==>
      trimmed != "" && FirstWord(trimmed) == "shadowrun" && props.hasOnSecretCommand
    ensures o.effects.hackToast <==> trimmed != "" && FirstWord(trimmed) == "hack"
  {
    if trimmed == "" then Outcome(t, NoEffects)
    else
      var command := FirstWord(trimmed);
      var remembered := t.(previousCommands := [trimmed] + t.previousCommands, commandIndex := -1);
      var output := OutputOf(trimmed, dateText);
      if command == "clear" then
        Outcome(remembered.(history := []), NoEffects)
      else
        var shown := remembered.(history := t.history + [Entry(trimmed, output)], input := "");
        var known := command in CommandNames;
        Outcome(shown, Effects(
          if known && props.hasOnCommandExecuted then Some(Notification(trimmed, output)) else None,
          command == "shadowrun" && props.hasOnSecretCommand,
          command == "hack"))
  }

  /**
    `executeCommand(cmd)`: the raw line is trimmed first, so a line of white
    space alone is the empty line.
   */
  function Execute(t: State, cmd: string, props: Props, dateText: string): (o: Outcome)
    ensures AllSpace(cmd) ==> o == Outcome(t, NoEffects)
    ensures !AllSpace(cmd) ==>
      o.state.previousCommands == [Trim(cmd)] + t.previousCommands && o.state.commandIndex == -1
  {
    ExecuteTrimmed(t, Trim(cmd), props, dateText)
  }

  /** The parent is told of the command line `exit` exactly when the trimmed line is `exit`. */
  lemma ExitReported(t: State, trimmed: string, props: Props, dateText: string)
    requires props.hasOnCommandExecuted
    ensures var o := ExecuteTrimmed(t, trimmed, props, dateText);
      o.effects.notified.Some? && o.effects.notified.value.command == "exit" <==> trimmed == "exit"
  {
    var o := ExecuteTrimmed(t, trimmed, props, dateText);
    if trimmed == "exit" {
      SplitFree("exit", ' ');
      assert FirstWord(trimmed) == "exit";
    } else if o.effects.notified.Some? {
      assert o.effects.notified.value.command == trimmed;
    }
  }

  /** The line `shadowrun` starts the secret timer when there is a secret callback, and is reported as itself. */
  lemma ShadowrunSchedules(t: State, trimmed: string, props: Props, dateText: string)
    requires trimmed == "shadowrun"
    ensures var o := ExecuteTrimmed(t, trimmed, props, dateText);
      (o.effects.secretScheduled <==> props.hasOnSecretCommand) &&
      o.effects.notified ==
        (if props.hasOnCommandExecuted then Some(Notification("shadowrun", Lines(ShadowrunBlock))) else None)
  {
    SplitFree("shadowrun", ' ');
    assert FirstWord(trimmed) == "shadowrun";
  }

  /** No line both reports `exit` (the parent's redirect) and starts the secret timer. */
  lemma ExitExcludesSecret(t: State, trimmed: string, props: Props, dateText: string)
    ensures var o := ExecuteTrimmed(t, trimmed, props, dateText);
      !(o.effects.notified.Some? && o.effects.notified.value.command == "exit" && o.effects.secretScheduled)
  {
    var o := ExecuteTrimmed(t, trimmed, props, dateText);
    if o.effects.notified.Some? && o.effects.notified.value.command == "exit" {
      assert trimmed == "exit";
      SplitFree("exit", ' ');
      assert FirstWord(trimmed) == "exit";
    }
  }

  /** Any line whose first word is `exit` shows the exit message and reports the whole line. */
  lemma ExitLineRuns(t: State, trimmed: string, props: Props, dateText: string)
    requires trimmed != "" && FirstWord(trimmed) == "exit"
    ensures var o := ExecuteTrimmed(t, trimmed, props, dateText);
      o.state.history == t.history + [Entry(trimmed, Line(ExitLine))] &&
      o.effects.notified == (if props.hasOnCommandExecuted then Some(Notification(trimmed, Line(ExitLine))) else None) &&
      !o.effects.secretScheduled
  {
  }

  /** Execution keeps the selection index in range. */
  lemma ExecutePreservesValid(t: State, cmd: string, props: Props, dateText: string)
    requires Valid(t)
    ensures Valid(Execute(t, cmd, props, dateText).state)
  {
  }

  /**
    Because the line is split on single spaces and `echo` joins its arguments
    with single spaces, `echo` prints exactly what follows `echo ` on the line,
    spaces included.
   */
  lemma {:induction false} EchoPrintsRemainder(trimmed: string)
    requires FirstWord(trimmed) == "echo"
    ensures trimmed == "echo" ==> Echo(Arguments(trimmed)) == Line("")
    ensures trimmed != "echo" ==>
      |trimmed| >= 5 && trimmed[..5] == "echo " && Echo(Arguments(trimmed)) == Line(trimmed[5..])
  {
    var parts := Split(trimmed, ' ');
    JoinSplit(trimmed, ' ');
    assert parts == [parts[0]] + parts[1..];
    if |parts| == 1 {
      assert Join(parts, ' ') == "echo";
    } else {
      assert Join(parts, ' ') == "echo" + " " + Join(parts[1..], ' ');
      assert trimmed == "echo " + Join(parts[1..], ' ');
      assert trimmed[5..] == Join(parts[1..], ' ');
    }
  }

  /** What the terminal prints for a line whose first word is `echo`: the rest of the line after `echo `. */
  lemma EchoOutput(trimmed: string, dateText: string)
    requires FirstWord(trimmed) == "echo"
    ensures trimmed == "echo" ==> OutputOf(trimmed, dateText) == Line("")
    ensures trimmed != "echo" ==> |trimmed| >= 5 && OutputOf(trimmed, dateText) == Line(trimmed[5..])
  {
    EchoPrintsRemainder(trimmed);
  }

  // ---------------------------------------------------------------------------
  // history navigation
  // ---------------------------------------------------------------------------

  /** `handleKeyDown`: ArrowUp selects an older command, ArrowDown a newer one, down to nothing. */
  function Navigate(t: State, key: Key): (r: State)
    requires key == ArrowDown ==> t.commandIndex <= |t.previousCommands|
    ensures r.history == t.history && r.previousCommands == t.previousCommands
    ensures Valid(t) ==> Valid(r)
    ensures key == OtherKey ==> r == t
    ensures key == ArrowUp && t.previousCommands == [] ==> r == t
    ensures key == ArrowUp && t.previousCommands != [] && t.commandIndex >= -1 ==>
      r.commandIndex == Min(t.commandIndex + 1, |t.previousCommands| - 1) &&
      r.input == t.previousCommands[r.commandIndex]
    ensures key == ArrowDown ==> r.commandIndex == Max(t.commandIndex - 1, -1)
    ensures key == ArrowDown && r.commandIndex == -1 ==> r.input == ""
    ensures key == ArrowDown && r.commandIndex >= 0 ==> r.input == t.previousCommands[r.commandIndex]
  {
    match key
    case ArrowUp =>
      var newIndex := Min(t.commandIndex + 1, |t.previousCommands| - 1);
      if newIndex >= 0 && |t.previousCommands| > 0 then
        t.(commandIndex := newIndex, input := t.previousCommands[newIndex])
      else t
    case ArrowDown =>
      var newIndex := Max(t.commandIndex - 1, -1);
      t.(commandIndex := newIndex, input := if newIndex >= 0 then t.previousCommands[newIndex] else "")
    case OtherKey => t
  }

  /**
    ArrowDown undoes ArrowUp: stepping to an older command and back restores
    the selection, and the input line shows the command selected before (or
    nothing, when nothing was selected).
   */
  lemma UpThenDown(t: State)
    requires Valid(t)
    requires t.commandIndex < |t.previousCommands| - 1
    ensures Navigate(Navigate(t, ArrowUp), ArrowDown).commandIndex == t.commandIndex
    ensures Navigate(Navigate(t, ArrowUp), ArrowDown).input ==
      (if t.commandIndex >= 0 then t.previousCommands[t.commandIndex] else "")
  {
  }

  /** Once the oldest command is selected, ArrowUp stays there. */
  lemma UpSaturates(t: State)
    requires Valid(t)
    requires t.previousCommands != [] && t.commandIndex == |t.previousCommands| - 1
    ensures Navigate(t, ArrowUp).commandIndex == t.commandIndex
    ensures Navigate(t, ArrowUp).input == t.previousCommands[|t.previousCommands| - 1]
  {
  }
}

=== FILE: text.dfy ===
/**
  The few JavaScript string operations the terminal and the dashboard rely on,
  written out over `seq<char>`: `String.prototype.trim`, `split(sep)` on a
  single character, `Array.prototype.join(sep)` and the decimal rendering of an
  integer inside a template literal.
 */
module Text {
  import opened Wrappers

  // ---------------------------------------------------------------------------
  // trim
  // ---------------------------------------------------------------------------

  predicate IsSpace(c: char) {
    var n := c as int;
    (9 <= n <= 13) || n == 32 || n == 0xA0 || n == 0x1680 || (0x2000 <= n <= 0x200A) ||
    n == 0x2028 || n == 0x2029 || n == 0x202F || n == 0x205F || n == 0x3000 || n == 0xFEFF
  }

  predicate AllSpace(s: string) {
    forall k :: 0 <= k < |s| ==> IsSpace(s[k])
  }

  /** Drops the leading white space: the result is the suffix of `s` after its longest white prefix. */
  function TrimStart(s: string): (r: string)
    ensures |r| <= |s| && r == s[|s| - |r|..]
    ensures AllSpace(s[..|s| - |r|])
    ensures r == [] || !IsSpace(r[0])
    decreases |s|
  {
    if |s| > 0 && IsSpace(s[0]) then
      var r := TrimStart(s[1..]);
      assert s[..|s| - |r|] == [s[0]] + s[1..][..|s| - 1 - |r|];
      r
    else s
  }

  /** Drops the trailing white space: the result is the prefix of `s` before its longest white suffix. */
  function TrimEnd(s: string): (r: string)
    ensures |r| <= |s| && r == s[..|r|]
    ensures AllSpace(s[|r|..])
    ensures r == [] || !IsSpace(r[|r| - 1])
    decreases |s|
  {
    if |s| > 0 && IsSpace(s[|s| - 1]) then
      var r := TrimEnd(s[..|s| - 1]);
      assert s[|r|..] == s[..|s| - 1][|r|..] + [s[|s| - 1]];
      r
    else s
  }

  /** `String.prototype.trim`. */
  function Trim(s: string): (r: string)
    ensures AllSpace(s) <==> r == []
    ensures r != [] ==> !IsSpace(r[0]) && !IsSpace(r[|r| - 1])
  {
    var m := TrimStart(s);
    var r := TrimEnd(m);
    TrimSplitsInput(s, m, r);
    r
  }

  lemma AllSpaceConcat(a: string, b: string)
    requires AllSpace(a) && AllSpace(b)
    ensures AllSpace(a + b)
  {
    forall k | 0 <= k < |a + b| ensures IsSpace((a + b)[k]) {
      if k < |a| { assert (a + b)[k] == a[k]; } else { assert (a + b)[k] == b[k - |a|]; }
    }
  }

  lemma TrimSplitsInput(s: string, m: string, r: string)
    requires |m| <= |s| && m == s[|s| - |m|..] && AllSpace(s[..|s| - |m|]) && (m == [] || !IsSpace(m[0]))
    requires |r| <= |m| && r == m[..|r|] && AllSpace(m[|r|..])
    ensures AllSpace(s) <==> r == []
    ensures r != [] ==> r[0] == m[0]
  {
    var p := s[..|s| - |m|];
    assert s == p + m;
    if r == [] {
      assert AllSpace(m) by {
        assert m[|r|..] == m;
      }
      AllSpaceConcat(p, m);
    } else {
      assert m[0] == s[|p|];
    }
  }

  lemma {:induction false} TrimStartOfSpacePrefix(a: string, m: string)
    requires AllSpace(a)
    requires m == [] || !IsSpace(m[0])
    ensures TrimStart(a + m) == m
    decreases |a|
  {
    if a == [] {
      assert a + m == m;
    } else {
      assert (a + m)[0] == a[0];
      assert (a + m)[1..] == a[1..] + m;
      TrimStartOfSpacePrefix(a[1..], m);
    }
  }

  lemma {:induction false} TrimEndOfSpaceSuffix(r: string, b: string)
    requires AllSpace(b)
    requires r == [] || !IsSpace(r[|r| - 1])
    ensures TrimEnd(r + b) == r
    decreases |b|
  {
    if b == [] {
      assert r + b == r;
    } else {
      assert (r + b)[|r + b| - 1] == b[|b| - 1];
      assert (r + b)[..|r + b| - 1] == r + b[..|b| - 1];
      TrimEndOfSpaceSuffix(r, b[..|b| - 1]);
    }
  }

  /**
    Trim is characterised by what it keeps: whenever `s` is white space, then
    a core that neither starts nor ends with white space, then white space,
    `Trim(s)` is exactly that core.
   */
  lemma TrimCharacterisation(a: string, r: string, b: string)
    requires AllSpace(a) && AllSpace(b)
    requires r == [] || (!IsSpace(r[0]) && !IsSpace(r[|r| - 1]))
    ensures Trim(a + r + b) == r
  {
    if r == [] {
      assert a + r + b == a + b;
      AllSpaceConcat(a, b);
    } else {
      assert a + r + b == a + (r + b);
      assert (r + b)[0] == r[0];
      TrimStartOfSpacePrefix(a, r + b);
      TrimEndOfSpaceSuffix(r, b);
    }
  }

  /** Trimming twice is trimming once. */
  lemma TrimIdempotent(s: string)
    ensures Trim(Trim(s)) == Trim(s)
  {
    var r := Trim(s);
    var none: string := [];
    assert r == [] || (!IsSpace(r[0]) && !IsSpace(r[|r| - 1]));
    assert AllSpace(none);
    TrimCharacterisation(none, r, none);
    assert none + r + none == r;
  }

  // ---------------------------------------------------------------------------
  // split and join on one separator character
  // ---------------------------------------------------------------------------

  /**
    `s.split(sep)` for a one-character separator: the maximal separator-free
    pieces, including empty ones between adjacent separators and at the ends.
   */
  function Split(s: string, sep: char): (r: seq<string>)
    ensures |r| >= 1
    ensures forall i :: 0 <= i < |r| ==> sep !in r[i]
    decreases |s|
  {
    if |s| == 0 then [""]
    else
      var rest := Split(s[1..], sep);
      if s[0] == sep then [""] + rest
      else [[s[0]] + rest[0]] + rest[1..]
  }

  /** Sum of the lengths of the pieces. */
  function TotalLength(parts: seq<string>): nat
    decreases |parts|
  {
    if parts == [] then 0 else |parts[0]| + TotalLength(parts[1..])
  }

  /** How often `c` occurs in the pieces altogether. */
  function Occurrences(parts: seq<string>, c: char): nat
    decreases |parts|
  {
    if parts == [] then 0 else multiset(parts[0])[c] + Occurrences(parts[1..], c)
  }

  /**
    `parts.join(sep)`: the empty array joins to the empty string; otherwise
    the pieces are kept whole and exactly one separator goes between each
    adjacent pair.
   */
  function Join(parts: seq<string>, sep: char): (r: string)
    ensures |parts| >= 1 ==> |r| == TotalLength(parts) + |parts| - 1
    ensures |parts| == 0 ==> r == ""
    decreases |parts|
  {
    if |parts| == 0 then ""
    else if |parts| == 1 then parts[0]
    else parts[0] + [sep] + Join(parts[1..], sep)
  }

  /** A join holds the separators of its pieces plus exactly one between each adjacent pair. */
  lemma {:induction false} JoinSeparators(parts: seq<string>, sep: char)
    requires |parts| >= 1
    ensures multiset(Join(parts, sep))[sep] == Occurrences(parts, sep) + |parts| - 1
    decreases |parts|
  {
    if |parts| >= 2 {
      JoinSeparators(parts[1..], sep);
      assert Join(parts, sep) == parts[0] + [sep] + Join(parts[1..], sep);
    }
  }

  /** Joining the pieces back with the same separator restores the string. */
  lemma {:induction false} JoinSplit(s: string, sep: char)
    ensures Join(Split(s, sep), sep) == s
    decreases |s|
  {
    if |s| > 0 {
      var rest := Split(s[1..], sep);
      JoinSplit(s[1..], sep);
      if s[0] == sep {
        assert Split(s, sep)[1..] == rest;
        assert s == [sep] + s[1..];
      } else if |rest| == 1 {
        assert s == [s[0]] + s[1..];
      } else {
        var head := [s[0]] + rest[0];
        assert Split(s, sep)[1..] == rest[1..];
        assert Join(rest, sep) == rest[0] + [sep] + Join(rest[1..], sep);
        assert s == [s[0]] + s[1..];
        assert Join(Split(s, sep), sep) == head + [sep] + Join(rest[1..], sep);
      }
    }
  }

  lemma {:induction false} SplitFree(a: string, sep: char)
    requires sep !in a
    ensures Split(a, sep) == [a]
    decreases |a|
  {
    if |a| > 0 {
      SplitFree(a[1..], sep);
      assert a == [a[0]] + a[1..];
    }
  }

  lemma {:induction false} SplitAtSeparator(a: string, b: string, sep: char)
    requires sep !in a
    ensures Split(a + [sep] + b, sep) == [a] + Split(b, sep)
    decreases |a|
  {
    if |a| == 0 {
      assert a + [sep] + b == [sep] + b;
      assert ([sep] + b)[1..] == b;
    } else {
      var s := a + [sep] + b;
      assert s[0] == a[0];
      assert s[1..] == a[1..] + [sep] + b;
      SplitAtSeparator(a[1..], b, sep);
      assert a == [a[0]] + a[1..];
    }
  }

  /** Splitting a join of separator-free pieces gives the pieces back. */
  lemma {:induction false} SplitJoin(parts: seq<string>, sep: char)
    requires |parts| >= 1
    requires forall i :: 0 <= i < |parts| ==> sep !in parts[i]
    ensures Split(Join(parts, sep), sep) == parts
    decreases |parts|
  {
    if |parts| == 1 {
      SplitFree(parts[0], sep);
    } else {
      SplitJoin(parts[1..], sep);
      SplitAtSeparator(parts[0], Join(parts[1..], sep), sep);
      assert parts == [parts[0]] + parts[1..];
    }
  }

  // ---------------------------------------------------------------------------
  // decimal numerals
  // ---------------------------------------------------------------------------

  predicate IsDigit(c: char) {
    '0' <= c <= '9'
  }

  predicate AllDigits(s: string) {
    forall k :: 0 <= k < |s| ==> IsDigit(s[k])
  }

  function DigitChar(d: nat): (c: char)
    requires d < 10
    ensures IsDigit(c) && (c as int) - ('0' as int) == d
  {
    "0123456789"[d]
  }

  /** Value of a string of decimal digits, most significant first; the empty string reads as 0. */
  function DecimalValue(s: string): nat
    requires AllDigits(s)
    decreases |s|
  {
    if |s| == 0 then 0
    else DecimalValue(s[..|s| - 1]) * 10 + ((s[|s| - 1] as int) - ('0' as int))
  }

  /** The shortest decimal numeral of `n`. */
  function NatToDecimal(n: nat): (r: string)
    ensures |r| >= 1 && AllDigits(r)
    ensures |r| > 1 ==> r[0] != '0'
    decreases n
  {
    if n < 10 then [DigitChar(n)]
    else NatToDecimal(n / 10) + [DigitChar(n % 10)]
  }

  lemma {:induction false} DecimalRoundTrip(n: nat)
    ensures DecimalValue(NatToDecimal(n)) == n
    decreases n
  {
    if n >= 10 {
      var r := NatToDecimal(n);
      DecimalRoundTrip(n / 10);
      assert r[..|r| - 1] == NatToDecimal(n / 10);
    }
  }

  /** How a JavaScript integer renders in a template literal (below 10^21, where exponent form starts). */
  function IntToString(i: int): string {
    if i < 0 then "-" + NatToDecimal(-i) else NatToDecimal(i)
  }

  /** A numeral as JavaScript renders a natural number: digits only, and no leading zero unless it is `0` itself. */
  predicate Canonical(s: string) {
    |s| >= 1 && AllDigits(s) && (|s| > 1 ==> s[0] != '0')
  }

  /** Reads a numeral as JavaScript renders an integer: an optional minus sign (never `-0`) before a canonical numeral. */
  function ParseInt(s: string): Option<int> {
    if |s| >= 2 && s[0] == '-' && Canonical(s[1..]) && s[1..] != "0" then Some(0 - DecimalValue(s[1..]) as int)
    else if Canonical(s) then Some(DecimalValue(s))
    else None
  }

  lemma {:induction false} DecimalPositive(s: string)
    requires |s| >= 1 && AllDigits(s) && s[0] != '0'
    ensures DecimalValue(s) >= 1
    decreases |s|
  {
    if |s| > 1 {
      DecimalPositive(s[..|s| - 1]);
    }
  }

  /** A canonical numeral is the rendering of its own value. */
  lemma {:induction false} DecimalOfCanonical(s: string)
    requires Canonical(s)
    ensures NatToDecimal(DecimalValue(s)) == s
    decreases |s|
  {
    var d := (s[|s| - 1] as int) - ('0' as int);
    if |s| == 1 {
      assert DigitChar(d) == s[0];
    } else {
      var p := s[..|s| - 1];
      DecimalOfCanonical(p);
      DecimalPositive(p);
      var v := DecimalValue(s);
      assert v == DecimalValue(p) * 10 + d && 0 <= d < 10;
      assert v / 10 == DecimalValue(p) && v % 10 == d;
      assert DigitChar(d) == s[|s| - 1];
      assert s == p + [s[|s| - 1]];
    }
  }

  /** Every rendered integer reads back as itself. */
  lemma IntRoundTrip(i: int)
    ensures ParseInt(IntToString(i)) == Some(i)
  {
    var d := NatToDecimal(if i < 0 then -i else i);
    DecimalRoundTrip(if i < 0 then -i else i);
    if i < 0 {
      var s := "-" + d;
      assert s[1..] == d;
      assert d != "0";
      assert ParseInt(s) == Some(0 - DecimalValue(d) as int);
    } else {
      assert IsDigit(d[0]);
      assert ParseInt(d) == Some(DecimalValue(d));
    }
  }

  /** A numeral reads as `n` only if it is exactly how `n` renders: the reader accepts nothing else. */
  lemma ParseIntCanonical(s: string, n: int)
    requires ParseInt(s) == Some(n)
    ensures IntToString(n) == s
  {
    if |s| >= 2 && s[0] == '-' && Canonical(s[1..]) && s[1..] != "0" {
      var t := s[1..];
      DecimalOfCanonical(t);
      if |t| > 1 { DecimalPositive(t); }
      assert DecimalValue(t) >= 1;
      assert s == "-" + t;
    } else {
      DecimalOfCanonical(s);
    }
  }
}

=== FILE: wrappers.dfy ===
/** The optional value used wherever a lookup can miss or a parse can fail. */
module Wrappers {

  datatype Option<+T> = None | Some(value: T)

}
